=== FILE: README.md ===
# AI career coach: the submit-then-poll protocol, verified

This Dafny project models the core of the AI career coach web application.
Each AI tool in it works the same way. An HTTP route checks its request and
submits one event to a background job runner. The route then polls the
runner's status endpoint until the run has produced a result, and answers
the client with that result. A background job handler receives the event,
calls an AI agent, cleans and checks the agent's answer, and writes one row
to the history table. A separate history route reads and edits that table.

Modelled parts:

- `json_value.dfy`: the untyped JavaScript values that flow through
  everything. Truthiness, `?.`, strict `.` that throws on
  `null`/`undefined`, `[0]` indexing and template-literal conversion.
- `text.dfy`: `String.prototype.replace` with a string pattern (first
  occurrence only) and `String.prototype.trim`.
- `extraction.dfy`: `extractOutput` of the roadmap route.
- `polling.dfy`: the two loop shapes. The output-first loop is bounded,
  with a policy of attempt budget and error handling. The
  wait-for-"Completed" loop is unbounded. Also the projection of a
  completed run's output.
- `http.dfy`: responses, events, error messages and run-id access shared
  by the routes.
- `roadmap_route.dfy`, `cover_letter_route.dfy`, `resume_route.dfy` and
  `career_chat_route.dfy`: the four `POST` handlers.
- `history.dfy`: the history table as a class over a sequence of rows,
  with the three queries run against it.
- `history_route.dfy`: the history route's `POST`, `PUT` and `GET`.
- `background_jobs.dfy`: the `AiResumeAgent`, `AIRoadmapAgent` and
  `AiCoverLetterAgent` handlers. This covers fence stripping, the
  cover-letter defaults and job description, the 100-character gate, and
  "parse before insert".

How external things are modelled:

- Every call into code outside the model is a `Reply`: it threw, or it
  returned a value. This covers `req.json()`, `inngest.send`, a status
  query, an agent run and the upload.
- The job runner is `runner: nat -> Reply`, the answer to the k-th status
  query.
- The agents are functions of their input. `JSON.parse` is a partial
  function `string -> Option<Json>`.
- The database is a `dbOk` flag that says whether it accepts the statement.
- The signed-in user is an optional `User` with an optional primary e-mail
  address.

Behaviours of the code that a reader may not expect, all kept by the model:

- `extractOutput` on `{output: [{content: X}]}` returns the element
  `{content: X}`, not `X` (`Extraction.ExtractKeepsContentWrapper`).
- The resume route answers with `data[0].output?.output[0]`, the first
  element of the run's nested output, not with the agent's text. The resume
  handler returns nothing, so a run that ends as the handler leaves it
  reports no output, and the route then answers `output: undefined`
  (`Polling.ProjectCompletedOutput`).
- When the cover-letter route spends its 60 attempts, it answers 500, not
  504.
- The career-chat route sends its projection with `NextResponse.json`. A
  completed run without output projects to `undefined`, which has no JSON
  text, so the request ends with an error that escapes the handler.
- The resume and career-chat loops have no attempt bound. A run that fails
  keeps them polling.

## Model

| member | source | states |
|---|---|---|
| Extraction.ExtractOutput | app/api/ai-roadmap-agent/route.tsx:62-68 | the result is `null` exactly when the run output is falsy; a truthy output gives a truthy result; the result is `null` or one of the three candidates `output[0]`, `output`, or the raw value |
| Extraction.ExtractFirstElement | app/api/ai-roadmap-agent/route.tsx:64 | `{output: [x, ...]}` with truthy `x` gives `x` |
| Extraction.ExtractInnerObject | app/api/ai-roadmap-agent/route.tsx:64 | `{output: {...}}` without a property "0" gives the inner object |
| Extraction.ExtractStringFirstCharacter | app/api/ai-roadmap-agent/route.tsx:64 | `{output: "abc"}` gives `"a"`, because `[0]` indexes the string |
| Extraction.ExtractKeepsContentWrapper | app/api/ai-roadmap-agent/route.tsx:64 | `{output: [{content: X}]}` gives `{content: X}`, not `X` |
| Extraction.ExtractBareValue | app/api/ai-roadmap-agent/route.tsx:64 | a truthy value without a truthy `output` is returned unchanged |
| Polling.DecideOutputFirst | app/api/ai-roadmap-agent/route.tsx:32-51 | per status answer: a truthy extracted output always wins, even over "Failed", and the output found is `extractOutput` of the run's `output`; without output, "Failed" stops the loop; a missing run waits; a thrown query aborts exactly when the policy does not treat it as transient |
| Polling.PollOutputFirst | app/api/ai-roadmap-agent/route.tsx:29-52 | at most `maxAttempts` queries; the loop ends exhausted exactly when every answer within the budget said "wait"; otherwise the last answer was decisive and every earlier answer said "wait" |
| Polling.CheckCompleted | app/api/ai-resume-agent/route.tsx:51-52 | the loop stops with the answer exactly when its run's status is "Completed"; it throws exactly when the query threw, or, with strict `data[0]`, when an answer has no `data` |
| Polling.FailedKeepsWaiting | app/api/ai-resume-agent/route.tsx:52 | a "Failed" run does not end a wait-for-"Completed" loop |
| Polling.WaitForCompleted | app/api/ai-resume-agent/route.tsx:50-54 | the loop ends only on a "Completed" answer or a throw, after all earlier answers said "keep waiting"; it is still polling after `fuel` queries exactly when every answer said "keep waiting" |
| Polling.NeverCompletedPollsForever | app/api/ai-resume-agent/route.tsx:50-54 | a runner that always answers with `data`, and never "Completed", keeps the loop waiting for every number of queries |
| Polling.ProjectCompletedOutput | app/api/ai-resume-agent/route.tsx:57 | a run without output gives `undefined`; a throw happens exactly when the output has no inner `output`; an inner non-empty array gives its first element only |
| RoadmapRoute.SwallowedErrorIsTransient | app/api/ai-roadmap-agent/route.tsx:70-82 | catching a failing query and answering `null` decides like a transient error: the loop continues |
| RoadmapRoute.Post | app/api/ai-roadmap-agent/route.tsx:6-60 | 400 "Missing required fields" exactly for a missing `roadmapId`, user or `userInput`, with no event sent and no query made; 500 "Failed to initiate Inngest run" exactly without a run id, before any query; at most 90 queries; a started run is polled until a decisive answer or until all 90 are spent; every 500 carries one of the route's messages; 200 exactly when an answer yields a truthy extracted output, whatever the status, answered with `{output, roadmapId}` carrying that output and the unchanged `roadmapId`; 500 "AI generation failed" exactly after a "Failed" run without output; 504 exactly when all 90 answers said "wait"; a failing status query never gives 500 "Internal Server Error" |
| CoverLetterRoute.InlineExtractionAgrees | app/api/ai-cover-letter-agent/route.tsx:37-43 | the inline chain decides like `extractOutput`; an absent `data[0]` yields `null` |
| CoverLetterRoute.Post | app/api/ai-cover-letter-agent/route.tsx:8-63 | 400 exactly for a missing `coverid`, user or `userInput`, with nothing sent; 500 "Failed to initiate Inngest run" exactly without a run id; at most 60 queries; a started run is polled until a decisive answer or until all 60 are spent; every 500 carries one of the route's four messages; 200 exactly when an answer yields a truthy extracted output, answered with `{output, coverid}` and the unchanged `coverid`; 500 "AI generation failed" exactly on a "Failed" run without output; 500 "Internal Server Error" exactly for a thrown status query (or a failed parse or send); a spent budget gives 500 "Output not available yet. Try again later." |
| ResumeRoute.Post | app/api/ai-resume-agent/route.tsx:11-64 | 400 exactly for a missing file, `recordId` or user, before anything is sent; the one event carries the unchanged `recordId` and the agent type; no run-id check, so a send result without `ids` gives 500 before any query, and so does a thrown send; a started run is polled until a decisive answer or the end of the queries followed; still polling exactly when every answer kept waiting; a "Completed" answer gives 200 with the projected output and the unchanged `recordId`, or 500 when the projection throws, and 200 happens only that way; a thrown query gives 500; it never crashes |
| CareerChatRoute.Post | app/api/ai-career-chat-agent/route.tsx:6-26 | no validation: exactly one "AiCareerAgent" event with `{userInput}`; a started run is polled until a decisive answer or the end of the queries followed; a "Completed" answer gives 200 with the bare projected output, and an escaping error when the projection throws or is `undefined` (`NextResponse.json(undefined)` throws); 200 happens only that way; any other error, such as a thrown send or query, escapes the handler |
| CareerChatRoute.CompletedWithoutOutputCrashes | app/api/ai-career-chat-agent/route.tsx:25 | a "Completed" run without output projects to `undefined`, which the route then fails to send |
| CareerChatRoute.AnswerWithoutDataCrashes | app/api/ai-career-chat-agent/route.tsx:20 | a status answer without `data` makes `data[0]` throw |
| History.FirstWithRecordId | app/api/history/route.tsx:60-66 | the index of the first row with that `recordId`, or none when no row has it |
| History.WithContent | app/api/history/route.tsx:37-40 | exactly the rows whose `recordId` matches get the new content; every other row and every other column is unchanged |
| History.NewestFirst | app/api/history/route.tsx:68-72 | exactly the user's rows, ordered by `id` descending |
| History.WithContentKeepsIds | configs/schema.ts:11 | updating content keeps the ids in ascending order |
| History.HistoryTable.constructor | configs/schema.ts:10-21 | an empty table whose identity column starts at 1 |
| History.HistoryTable.Insert | configs/schema.ts:10-21 | a row is appended with the next identity value exactly when the database works and every `varchar(255) NOT NULL` column gets a string of at most 255 characters; otherwise nothing changes |
| History.HistoryTable.SetContent | app/api/history/route.tsx:37-40 | the table becomes `WithContent` of the old rows exactly when the database works and `content` is defined (an update with nothing to set throws), and is unchanged otherwise |
| HistoryRoute.Post | app/api/history/route.tsx:8-30 | without a primary e-mail address, 401 and the table is unchanged; otherwise exactly one row is inserted, with `recordId`, `content` and `aiAgentType` from the body and `userEmail` from the user; a refused insert gives 500 "Database insertion failed" |
| HistoryRoute.Put | app/api/history/route.tsx:33-47 | with no sign-in check, only `content` is set, on every row with the body's `recordId`; a database failure, or a body without `content`, gives 500 "Database update failed" and leaves the table unchanged |
| HistoryRoute.Get | app/api/history/route.tsx:50-80 | without sign-in, 401; a database failure gives 500 "Database fetch failed"; with a `recordId`, the first row carrying it, or `{}`; without one, exactly the caller's rows, newest first |
| HistoryRoute.LookupIgnoresCaller | app/api/history/route.tsx:60-64 | a lookup by `recordId` gives every signed-in caller the same answer |
| Text.ReplaceFirst | inngest/functions.ts:271 | with no occurrence, the text is unchanged; otherwise only the first occurrence is replaced |
| Text.TrimStart | inngest/functions.ts:393 | the result is a suffix of the text; what it drops is white space; it does not start with white space |
| Text.TrimEnd | inngest/functions.ts:393 | the result is a prefix of the text; what it drops is white space; it does not end with white space |
| Text.Trim | inngest/functions.ts:393 | the result is no longer than the text, and it neither starts nor ends with white space |
| Text.TrimEmptyIffAllSpace | inngest/functions.ts:393 | `trim` gives "" exactly when the text is all white space |
| Text.TrimStartDropsPrefix | inngest/functions.ts:393 | leading white space before a non-space character is exactly what is removed |
| Text.TrimEndDropsSuffix | inngest/functions.ts:393 | trailing white space after a non-space character is exactly what is removed |
| Text.TrimAround | inngest/functions.ts:388-393 | `trim` of white space, then text, then white space is the text, when the text starts and ends with a non-space character |
| BackgroundJobs.UnfencedTextUnchanged | inngest/functions.ts:271 | text without "```" passes fence stripping unchanged |
| BackgroundJobs.FencedBlockRoundTrip | inngest/functions.ts:336 | "```json" + x + "```" strips to x when x holds no fence and does not end in a backtick |
| BackgroundJobs.RoadmapRawContent | inngest/functions.ts:335 | a `null` or `undefined` agent result throws; a falsy content becomes ""; a truthy string content is returned as it is; a truthy content that is not a string throws, since it has no `replace` |
| BackgroundJobs.MissingContentIsInvalidJson | inngest/functions.ts:335-344 | with no content, "" is parsed, and when that fails the handler throws "Invalid JSON returned from AI agent" |
| BackgroundJobs.RoadmapJob | inngest/functions.ts:326-364 | on any failure before the insert, the handler fails with that error and writes nothing; it finishes exactly when parsing succeeds and the insert is accepted; the row stores `roadmapId`, the parsed content, "/ai-tools/ai-roadmap-agent" and `metaData = userInput`; it returns `{output: parsed}` |
| BackgroundJobs.ResumeRawContent | inngest/functions.ts:269 | succeeds exactly when the report, its `output` and `output[0]` are present and `content` is a string, and then gives that string; every other case throws a type error |
| BackgroundJobs.ResumeJob | inngest/functions.ts:247-293 | upload, then the agent, then parsing, then the insert; a failure before the insert writes nothing; it finishes exactly when parsing succeeds and the insert is accepted; the row stores the parsed report, the event's `aiAgentType` and `metaData` = the upload URL; the handler returns nothing |
| BackgroundJobs.MissingFieldsDefault | inngest/functions.ts:379-393 | when `userInput` has none of the five fields, name, company and position are "" and the job description is the four bare labels |
| BackgroundJobs.PresentTitleKept | inngest/functions.ts:379-393 | a present job title, `null` included, is kept: it is the position, and the first line of the description shows its text ("Job Title: null") |
| BackgroundJobs.JobDescriptionLines | inngest/functions.ts:388-393 | with notes that end in a non-space character, the job description is "Job Title: ", "Company: ", "Required Skills: " and "Additional Notes: " lines with their values, the inner indentation kept and only the outer indentation trimmed |
| BackgroundJobs.JobDescriptionWithoutNotes | inngest/functions.ts:388-393 | with empty notes, the description ends in "Additional Notes:", because `trim` also removes the space after the label |
| BackgroundJobs.CoverLetterText | inngest/functions.ts:409 | a missing content gives ""; a string content gives its `trim`; any other content throws, since it has no `trim` |
| BackgroundJobs.CoverLetterContent | inngest/functions.ts:373-413 | a `null` event or `null` `userInput` throws; an agent that throws fails the handler, and so the run; for string content, the trimmed text is stored exactly when it has at least 100 characters, and is rejected as too short otherwise; a stored text has at least 100 characters and no surrounding white space |
| BackgroundJobs.BlankAnswerIsTooShort | inngest/functions.ts:409-413 | missing or blank agent content is rejected as too short |
| BackgroundJobs.CoverLetterJob | inngest/functions.ts:369-436 | any failure before the insert, the length gate included, fails with that error and writes nothing; it finishes exactly when the text passes the gate and the insert is accepted; `{coverLetter: text}` is stored under `coverid` with "/ai-tools/ai-cover-letter-agent" and `metaData = userInput`, and is also returned |

## Left out

- HTTP, Next.js, the Inngest client, axios, Clerk and Drizzle are not modelled as libraries. Their results are parameters (`Reply`, `runner`, `User`, `dbOk`).
- Delays (`setTimeout`) are left out. Loops count queries, not milliseconds.
- Polling.WaitForCompleted: the resume and career-chat loops are `while (true)`. The model follows their first `fuel` queries. `StillWaiting`/`StillPolling` stands for "still looping", and a run that never ends is shown only for every finite prefix.
- Numbers are integers. `NaN`, fractions and `-0` are not modelled.
- String length and indexing count characters, not UTF-16 code units. For text outside the Basic Multilingual Plane this changes the cover-letter 100-character gate, and `[0]` on a string (`Index0`, as in `Extraction.ExtractStringFirstCharacter`), which gives the whole character where JavaScript gives a lone surrogate.
- Strings are compared as sequences of characters, with no Unicode normalisation.
- The prompts, the agent definitions and the LLM calls are left out. Each agent is a function of its input.
- BackgroundJobs.AgentRequest: the record passed to the cover-letter agent is kept as a record. Its `JSON.stringify` serialisation is left out.
- `JSON.parse` is a partial function given as a parameter. Its grammar is not modelled.
- ResumeRoute.Post: a failure of the file handling (`formData`, `arrayBuffer`, the temporary-file write or PDF loading) makes the source answer 500 before any event is sent. The model starts after that handling, so this path is left out.
- Reading the uploaded file, the temporary file, PDF loading, base64 conversion and the image-hosting upload are left out. The resume route receives the file's base64 text and the first page's text. The resume job receives the upload's result.
- The job runner's `step.run` retries and memoisation are left out. Each step runs once.
- A handler that throws marks its run "Failed" in the runner. That link is not modelled, because the runner is a parameter.
- `createdAt` and every other timestamp are left out.
- Row order: the model keeps rows in insertion order. A lookup by `recordId` returns the first inserted row, where Postgres leaves the order unspecified.
- History.HistoryTable.Insert: a non-string value for a `varchar` column is modelled as a refused insert. Any coercion by the driver is not modelled.
- `metaData` is declared `varchar` and receives objects (`userInput`). It is stored as a JSON value.
- The `details` field of the history route's 500 bodies (`String(e)`) is left out.
- The history route's success bodies (`message` and `result`) are reduced to `Inserted` and `Updated`.
- Foreign-key failures (`userEmail` referencing `users`) are part of `dbOk`.
- `helloWorld` and the commented-out first version of `AIRoadmapAgent` are demo and dead code.
- `AiCareerAgent`'s handler only passes the agent's result through, so it is left out.
- The career-chat route's `getRuns` comes from lib/inngest/getRuns, which is not part of this model. It is modelled like the resume route's: a query that throws propagates.
- Cancellation and concurrent requests are left out. The source has no concurrency logic.
- Console logging is left out.

=== FILE: background_jobs.dfy ===
/**
 * The background job handlers that the job runner executes for the
 * "AiResumeAgent", "AIRoadmapAgent" and "AiCoverLetterAgent" events: call the
 * AI agent, clean up and check its answer, and only then write one history
 * row.
 *
 * The agents are opaque functions of their input, and `JSON.parse` is the
 * opaque partial function `parse` (None: it throws).
 */
module BackgroundJobs {
  import opened Optional
  import opened JsonValue
  import opened Text
  import opened History

  // ---------------------------------------------------------------------
  // Fence stripping

  const JsonFence := "```json"
  const Fence := "```"

  /** `raw.replace("```json", "").replace("```", "")`: one opening and one closing fence at most. */
  function StripFences(raw: string): string {
    ReplaceFirst(ReplaceFirst(raw, JsonFence, ""), Fence, "")
  }

  /** An opening fence starts with a plain fence. */
  lemma JsonFenceStartsWithFence(s: string, j: int)
    requires OccursAt(s, JsonFence, j)
    ensures OccursAt(s, Fence, j)
  {
    assert s[j..j + 3] == s[j..j + 7][..3];
  }

  /** Text with no fence at all comes back unchanged. */
  lemma UnfencedTextUnchanged(raw: string)
    requires forall j :: !OccursAt(raw, Fence, j)
    ensures StripFences(raw) == raw
  {
    forall j | OccursAt(raw, JsonFence, j)
      ensures false
    {
      JsonFenceStartsWithFence(raw, j);
    }
    assert ReplaceFirst(raw, JsonFence, "") == raw;
  }

  /** The closing fence of "x```" is the first fence when x holds none and does not end in a backtick. */
  lemma ClosingFenceIsFirst(x: string)
    requires forall j :: !OccursAt(x, Fence, j)
    requires x == [] || x[|x| - 1] != '`'
    ensures OccursAt(x + Fence, Fence, |x|)
    ensures forall j :: 0 <= j < |x| ==> !OccursAt(x + Fence, Fence, j)
  {
    var t := x + Fence;
    assert t[|x|..|x| + 3] == Fence;
    forall j | 0 <= j < |x|
      ensures !OccursAt(t, Fence, j)
    {
      if j + 3 <= |x| {
        assert t[j..j + 3] == x[j..j + 3];
        assert !OccursAt(x, Fence, j);
      } else {
        // the window would put a backtick on x's last character
        assert t[|x| - 1] == x[|x| - 1] != '`';
      }
    }
  }

  /**
   * A fenced JSON block, "```json" + x + "```", comes back as x when x holds
   * no fence and does not end in a backtick.
   */
  lemma FencedBlockRoundTrip(x: string)
    requires forall j :: !OccursAt(x, Fence, j)
    requires x == [] || x[|x| - 1] != '`'
    ensures StripFences(JsonFence + x + Fence) == x
  {
    var s := JsonFence + x + Fence;
    assert OccursAt(s, JsonFence, 0) by {
      assert s[0..7] == JsonFence;
    }
    var t := x + Fence;
    assert ReplaceFirst(s, JsonFence, "") == t by {
      assert s[..0] + "" + s[7..] == t;
    }
    ClosingFenceIsFirst(x);
    assert ReplaceFirst(t, Fence, "") == x by {
      assert t[..|x|] + "" + t[|x| + 3..] == x;
    }
  }

  // ---------------------------------------------------------------------
  // Outcomes

  /** Why a handler throws. */
  datatype JobError =
    | TypeError              // a property of null/undefined read, or a method missing
    | AgentFailed            // the AI agent threw
    | UploadFailed           // the file upload threw
    | InvalidJsonFromAgent   // "Invalid JSON returned from AI agent"
    | JsonSyntaxError        // `JSON.parse` threw and nothing caught it
    | CoverLetterTooShort    // "Cover letter content is too short or empty."
    | DatabaseFailed         // the insert was refused

  /** A handler returns a value or throws. */
  datatype JobOutcome = Finished(returned: Json) | Failed(error: JobError)

  /** A pure step's result. */
  datatype Attempt<T> = Success(value: T) | Failure(error: JobError)

  // ---------------------------------------------------------------------
  // "AIRoadmapAgent"

  const RoadmapAgentType := "/ai-tools/ai-roadmap-agent"

  /** The roadmap agent's input: `"UserInput:" + userInput`. */
  function RoadmapPrompt(userInput: Json): string {
    "UserInput:" + ToText(userInput)
  }

  /**
   * `roadmapResult.output?.[0]?.content || ""`, which must then be a string
   * for `.replace` to exist.
   */
  function RoadmapRawContent(result: Json): (r: Attempt<string>)
    ensures Nullish(result) ==> r == Failure(TypeError)
    ensures !Nullish(result) && !Truthy(Prop(Index0(Prop(result, "output")), "content")) ==> r == Success("")
    ensures var content := Prop(Index0(Prop(result, "output")), "content");
            !Nullish(result) && Truthy(content)
            ==> r == if content.Str? then Success(content.s) else Failure(TypeError)
    ensures r.Success? && r.value != "" ==> Prop(Index0(Prop(result, "output")), "content") == Str(r.value)
  {
    match Member(result, "output")
    case Threw => Failure(TypeError)
    case Returned(output) =>
      var content := Prop(Index0(output), "content");
      var raw := if Truthy(content) then content else Str("");
      if raw.Str? then Success(raw.s) else Failure(TypeError)
  }

  /** The parsed roadmap, or why the handler throws before any insert. */
  function RoadmapContent(agentReply: Reply, parse: string -> Option<Json>): Attempt<Json> {
    match agentReply
    case Threw => Failure(AgentFailed)
    case Returned(result) =>
      match RoadmapRawContent(result)
      case Failure(e) => Failure(e)
      case Success(raw) =>
        match parse(StripFences(raw))
        case None => Failure(InvalidJsonFromAgent)
        case Some(parsed) => Success(parsed)
  }

  /** An agent answer without content is parsed as "" and fails as invalid JSON. */
  lemma MissingContentIsInvalidJson(result: Json, parse: string -> Option<Json>)
    requires !Nullish(result) && !Truthy(Prop(Index0(Prop(result, "output")), "content"))
    requires parse("") == None
    ensures RoadmapContent(Returned(result), parse) == Failure(InvalidJsonFromAgent)
  {
    UnfencedTextUnchanged("");
  }

  /**
   * The live `AIRoadmapAgent` handler. `data` is the event data, `agent` the
   * roadmap agent, `dbOk` whether the database works.
   */
  method RoadmapJob(table: HistoryTable, data: Json, agent: string -> Reply, parse: string -> Option<Json>, dbOk: bool)
    returns (outcome: JobOutcome)
    requires table.Valid()
    modifies table
    ensures table.Valid()
    ensures Nullish(data) ==> outcome == Failed(TypeError)
    ensures !Nullish(data) && RoadmapContent(agent(RoadmapPrompt(Prop(data, "userInput"))), parse).Failure?
            ==> outcome == Failed(RoadmapContent(agent(RoadmapPrompt(Prop(data, "userInput"))), parse).error)
    ensures outcome.Finished? <==>
              !Nullish(data) && RoadmapContent(agent(RoadmapPrompt(Prop(data, "userInput"))), parse).Success?
              && dbOk && FitsRequiredVarchar(Prop(data, "roadmapId")) && FitsRequiredVarchar(Prop(data, "userEmail"))
    ensures outcome.Finished? ==>
              var parsed := RoadmapContent(agent(RoadmapPrompt(Prop(data, "userInput"))), parse).value;
              outcome.returned == Obj(map["output" := parsed])
              && table.rows == old(table.rows) + [Row(old(table.nextId), Prop(data, "roadmapId").s, parsed,
                                                      Prop(data, "userEmail").s, RoadmapAgentType, Prop(data, "userInput"))]
    ensures outcome.Failed? ==> table.rows == old(table.rows)
  {
    if Nullish(data) {
      return Failed(TypeError);
    }
    var roadmapId := Prop(data, "roadmapId");
    var userInput := Prop(data, "userInput");
    var userEmail := Prop(data, "userEmail");
    var roadmapResult := agent(RoadmapPrompt(userInput));
    if roadmapResult.Threw? {
      return Failed(AgentFailed);
    }
    var rawContent := RoadmapRawContent(roadmapResult.value);
    if rawContent.Failure? {
      return Failed(rawContent.error);
    }
    var parsed := parse(StripFences(rawContent.value));
    if parsed.None? {
      return Failed(InvalidJsonFromAgent);
    }
    var inserted := table.Insert(roadmapId, parsed.value, userEmail, Str(RoadmapAgentType), userInput, dbOk);
    if !inserted {
      return Failed(DatabaseFailed);
    }
    outcome := Finished(Obj(map["output" := parsed.value]));
  }

  // ---------------------------------------------------------------------
  // "AiResumeAgent"

  /** `aiResumeReport.output[0].content`, with every step strict, which must then be a string. */
  function ResumeRawContent(report: Json): (r: Attempt<string>)
    ensures r.Success? <==> !Nullish(report) && !Nullish(Prop(report, "output"))
                            && !Nullish(Index0(Prop(report, "output")))
                            && Prop(Index0(Prop(report, "output")), "content").Str?
    ensures r.Success? ==> Prop(Index0(Prop(report, "output")), "content") == Str(r.value)
    ensures r.Failure? ==> r.error == TypeError
  {
    match Member(report, "output")
    case Threw => Failure(TypeError)
    case Returned(output) =>
      match Element0(output)
      case Threw => Failure(TypeError)
      case Returned(first) =>
        match Member(first, "content")
        case Threw => Failure(TypeError)
        case Returned(content) => if content.Str? then Success(content.s) else Failure(TypeError)
  }

  /** The parsed resume report, or why the handler throws before any insert. */
  function ResumeContent(agentReply: Reply, parse: string -> Option<Json>): Attempt<Json> {
    match agentReply
    case Threw => Failure(AgentFailed)
    case Returned(report) =>
      match ResumeRawContent(report)
      case Failure(e) => Failure(e)
      case Success(raw) =>
        match parse(StripFences(raw))
        case None => Failure(JsonSyntaxError)
        case Some(parsed) => Success(parsed)
  }

  /**
   * The `AiResumeAgent` handler: upload the file (`upload` is the step's
   * result, the file's URL), run the agent on the PDF text, parse, then
   * insert. It returns nothing.
   */
  method ResumeJob(table: HistoryTable, data: Json, upload: Reply, agent: Json -> Reply,
                   parse: string -> Option<Json>, dbOk: bool)
    returns (outcome: JobOutcome)
    requires table.Valid()
    modifies table
    ensures table.Valid()
    ensures Nullish(data) ==> outcome == Failed(TypeError)
    ensures !Nullish(data) && upload.Threw? ==> outcome == Failed(UploadFailed)
    ensures !Nullish(data) && upload.Returned? && ResumeContent(agent(Prop(data, "pdfText")), parse).Failure?
            ==> outcome == Failed(ResumeContent(agent(Prop(data, "pdfText")), parse).error)
    ensures outcome.Finished? <==>
              !Nullish(data) && upload.Returned? && ResumeContent(agent(Prop(data, "pdfText")), parse).Success?
              && dbOk && FitsRequiredVarchar(Prop(data, "recordId")) && FitsRequiredVarchar(Prop(data, "userEmail"))
              && FitsRequiredVarchar(Prop(data, "aiAgentType"))
    ensures outcome.Finished? ==>
              outcome.returned == Undef
              && table.rows == old(table.rows)
                               + [Row(old(table.nextId), Prop(data, "recordId").s,
                                      ResumeContent(agent(Prop(data, "pdfText")), parse).value,
                                      Prop(data, "userEmail").s, Prop(data, "aiAgentType").s, upload.value)]
    ensures outcome.Failed? ==> table.rows == old(table.rows)
  {
    if Nullish(data) {
      return Failed(TypeError);
    }
    if upload.Threw? {
      return Failed(UploadFailed);
    }
    var uploadFileUrl := upload.value;
    var report := agent(Prop(data, "pdfText"));
    if report.Threw? {
      return Failed(AgentFailed);
    }
    var rawContent := ResumeRawContent(report.value);
    if rawContent.Failure? {
      return Failed(rawContent.error);
    }
    var parsed := parse(StripFences(rawContent.value));
    if parsed.None? {
      return Failed(JsonSyntaxError);
    }
    var inserted := table.Insert(Prop(data, "recordId"), parsed.value, Prop(data, "userEmail"),
                                 Prop(data, "aiAgentType"), uploadFileUrl, dbOk);
    if !inserted {
      return Failed(DatabaseFailed);
    }
    outcome := Finished(Undef);
  }

  // ---------------------------------------------------------------------
  // "AiCoverLetterAgent"

  const CoverLetterAgentType := "/ai-tools/ai-cover-letter-agent"
  const MinCoverLetterLength := 100

  /** The object the handler serialises with `JSON.stringify` for the agent. */
  datatype CoverLetterRequest = CoverLetterRequest(
    resumeText: string, jobDescription: string, applicantName: Json, companyName: Json, position: Json)

  /** `const { key = "" } = userInput`: the default applies only to a missing property. */
  function FieldOrEmpty(userInput: Json, key: string): Json {
    if Prop(userInput, key) == Undef then Str("") else Prop(userInput, key)
  }

  /** The indentation before each labelled line of the template, and before its closing backtick. */
  const Indent := "\n      "
  const ClosingIndent := "\n    "

  /** The template literal of the job description, before `.trim()`. */
  function JobDescriptionTemplate(jobTitle: string, companyName: string, keySkills: string, additionalNotes: string): string {
    Indent + "Job Title: " + jobTitle
    + Indent + "Company: " + companyName
    + Indent + "Required Skills: " + keySkills
    + Indent + "Additional Notes: " + additionalNotes
    + ClosingIndent
  }

  /** The four labelled lines, trimmed. */
  function JobDescription(jobTitle: Json, companyName: Json, keySkills: Json, additionalNotes: Json): string {
    Trim(JobDescriptionTemplate(ToText(jobTitle), ToText(companyName), ToText(keySkills), ToText(additionalNotes)))
  }

  /** The first three labelled lines, without the indentation before the first. */
  function FirstLines(jobTitle: string, companyName: string, keySkills: string): (r: string)
    ensures r != [] && r[0] == 'J'
  {
    "Job Title: " + jobTitle + Indent + "Company: " + companyName + Indent + "Required Skills: " + keySkills
  }

  /** The indentation is white space. */
  lemma IndentationIsSpace()
    ensures AllSpace(Indent) && AllSpace(ClosingIndent) && AllSpace(" " + ClosingIndent)
  {
  }

  /** The template, with the first indentation and the closing indentation split off. */
  lemma TemplateAroundLines(jobTitle: string, companyName: string, keySkills: string, notes: string)
    ensures JobDescriptionTemplate(jobTitle, companyName, keySkills, notes)
            == Indent + (FirstLines(jobTitle, companyName, keySkills) + Indent + "Additional Notes: " + notes) + ClosingIndent
  {
    Regroup(Indent, "Job Title: ", jobTitle, "Company: ", companyName, "Required Skills: ", keySkills,
            "Additional Notes: ", notes, ClosingIndent);
  }

  /** Regrouping of the template's pieces, stated once for any pieces. */
  lemma Regroup(i: string, a: string, t: string, b: string, c: string, d: string, k: string,
                e: string, n: string, z: string)
    ensures i + a + t + i + b + c + i + d + k + i + e + n + z
            == i + (a + t + i + b + c + i + d + k + i + e + n) + z
  {
  }

  /** The last label's trailing space, split off. */
  lemma NotesLabelSplit()
    ensures "Additional Notes: " == "Additional Notes:" + " "
  {
  }

  /** The template for empty notes: the space after the last label joins the closing indentation. */
  lemma TemplateWithoutNotes(jobTitle: string, companyName: string, keySkills: string)
    ensures JobDescriptionTemplate(jobTitle, companyName, keySkills, "")
            == Indent + (FirstLines(jobTitle, companyName, keySkills) + Indent + "Additional Notes:") + (" " + ClosingIndent)
  {
    var lines := Indent + FirstLines(jobTitle, companyName, keySkills) + Indent;
    calc {
      JobDescriptionTemplate(jobTitle, companyName, keySkills, "");
      lines + "Additional Notes: " + "" + ClosingIndent;
      { NotesLabelSplit(); }
      lines + ("Additional Notes:" + " ") + "" + ClosingIndent;
      Indent + (FirstLines(jobTitle, companyName, keySkills) + Indent + "Additional Notes:") + (" " + ClosingIndent);
    }
  }

  /** With notes that end in a non-space, the description is exactly the four lines, indentation kept between them. */
  lemma JobDescriptionLines(jobTitle: string, companyName: string, keySkills: string, notes: string)
    requires notes != [] && !IsSpace(notes[|notes| - 1])
    ensures JobDescription(Str(jobTitle), Str(companyName), Str(keySkills), Str(notes))
            == FirstLines(jobTitle, companyName, keySkills) + Indent + "Additional Notes: " + notes
  {
    var u := FirstLines(jobTitle, companyName, keySkills) + Indent + "Additional Notes: " + notes;
    assert u[|u| - 1] == notes[|notes| - 1];
    TemplateAroundLines(jobTitle, companyName, keySkills, notes);
    IndentationIsSpace();
    TrimAround(Indent, u, ClosingIndent);
  }

  /** Without notes, `trim` also takes the space after the last label. */
  lemma JobDescriptionWithoutNotes(jobTitle: string, companyName: string, keySkills: string)
    ensures JobDescription(Str(jobTitle), Str(companyName), Str(keySkills), Str(""))
            == FirstLines(jobTitle, companyName, keySkills) + Indent + "Additional Notes:"
  {
    var u := FirstLines(jobTitle, companyName, keySkills) + Indent + "Additional Notes:";
    assert u[|u| - 1] == ':';
    TemplateWithoutNotes(jobTitle, companyName, keySkills);
    IndentationIsSpace();
    TrimAround(Indent, u, " " + ClosingIndent);
  }

  /** The job description when only the job title is given. */
  lemma LinesWithTitleOnly(jobTitle: Json, e: Json)
    requires e == Str("")
    ensures JobDescription(jobTitle, e, e, e)
            == "Job Title: " + ToText(jobTitle) + Indent + "Company: " + Indent + "Required Skills: " + Indent + "Additional Notes:"
  {
    var t := ToText(jobTitle);
    assert JobDescription(jobTitle, e, e, e) == JobDescription(Str(t), e, e, e);
    JobDescriptionWithoutNotes(t, "", "");
    var a, i := "Job Title: " + t, Indent;
    calc {
      FirstLines(t, "", "") + i + "Additional Notes:";
      a + i + "Company: " + "" + i + "Required Skills: " + "" + i + "Additional Notes:";
      { EmptyPieces(a, i, "Company: ", "Required Skills: ", "Additional Notes:"); }
      a + i + "Company: " + i + "Required Skills: " + i + "Additional Notes:";
    }
  }

  /** Empty company and skills values drop out of the concatenation. */
  lemma EmptyPieces(a: string, i: string, b: string, c: string, d: string)
    ensures a + i + b + "" + i + c + "" + i + d == a + i + b + i + c + i + d
  {
    assert b + "" == b && c + "" == c;
  }

  /**
   * Every field missing from `userInput` defaults to "": the name, company and
   * position are empty, and the job description holds only the bare labels.
   */
  lemma MissingFieldsDefault(userInput: Json)
    requires Prop(userInput, "jobTitle") == Undef && Prop(userInput, "companyName") == Undef
    requires Prop(userInput, "keySkills") == Undef && Prop(userInput, "additionalNotes") == Undef
    requires Prop(userInput, "applicantName") == Undef
    ensures AgentRequest(userInput)
            == CoverLetterRequest(
                 "",
                 "Job Title: " + Indent + "Company: " + Indent + "Required Skills: " + Indent + "Additional Notes:",
                 Str(""), Str(""), Str(""))
  {
    var e := FieldOrEmpty(userInput, "jobTitle");
    assert AgentRequest(userInput) == CoverLetterRequest("", JobDescription(e, e, e, e), e, e, e);
    LinesWithTitleOnly(e, e);
    EmptyTitle("Job Title: ", ToText(e), Indent, "Company: ", "Required Skills: ", "Additional Notes:");
  }

  /** An empty title value drops out of the concatenation. */
  lemma EmptyTitle(a: string, t: string, i: string, b: string, c: string, d: string)
    requires t == ""
    ensures a + t + i + b + i + c + i + d == a + i + b + i + c + i + d
  {
    assert a + t == a;
  }

  /**
   * A present job title is kept as it is, `null` included: it becomes the
   * position, and the description's first line reads "Job Title: null".
   */
  lemma PresentTitleKept(userInput: Json)
    requires Prop(userInput, "jobTitle") != Undef
    requires Prop(userInput, "companyName") == Undef && Prop(userInput, "keySkills") == Undef
    requires Prop(userInput, "additionalNotes") == Undef && Prop(userInput, "applicantName") == Undef
    ensures AgentRequest(userInput)
            == CoverLetterRequest(
                 "",
                 "Job Title: " + ToText(Prop(userInput, "jobTitle")) + Indent + "Company: " + Indent
                 + "Required Skills: " + Indent + "Additional Notes:",
                 Str(""), Str(""), Prop(userInput, "jobTitle"))
  {
    LinesWithTitleOnly(Prop(userInput, "jobTitle"), FieldOrEmpty(userInput, "companyName"));
  }

  /** The agent's input, from `userInput` after its `{}` default. */
  function AgentRequest(userInput: Json): CoverLetterRequest {
    var jobTitle := FieldOrEmpty(userInput, "jobTitle");
    var companyName := FieldOrEmpty(userInput, "companyName");
    CoverLetterRequest(
      "",
      JobDescription(jobTitle, companyName, FieldOrEmpty(userInput, "keySkills"), FieldOrEmpty(userInput, "additionalNotes")),
      FieldOrEmpty(userInput, "applicantName"),
      companyName,
      jobTitle)
  }

  /** `result?.output?.[0]?.content?.trim() || ""`; a content that is no string has no `trim` and throws. */
  function CoverLetterText(result: Json): (r: Attempt<string>)
    ensures Nullish(Prop(Index0(Prop(result, "output")), "content")) ==> r == Success("")
    ensures var content := Prop(Index0(Prop(result, "output")), "content");
            content.Str? ==> r == Success(Trim(content.s))
    ensures var content := Prop(Index0(Prop(result, "output")), "content");
            !Nullish(content) && !content.Str? ==> r == Failure(TypeError)
    ensures r.Success? ==> Trimmed(r.value)
  {
    var content := Prop(Index0(Prop(result, "output")), "content");
    if Nullish(content) then Success("")
    else if content.Str? then Success(Trim(content.s))
    else Failure(TypeError)
  }

  /** `!text || text.length < 100` */
  predicate TooShort(text: string) {
    text == [] || |text| < MinCoverLetterLength
  }

  /** `const { userInput = {} } = data`: the default applies only to a missing property. */
  function CoverLetterInput(data: Json): Json {
    if Prop(data, "userInput").Undef? then Obj(map[]) else Prop(data, "userInput")
  }

  /** The cover letter text the handler stores, or why it throws before any insert. */
  function CoverLetterContent(data: Json, agent: CoverLetterRequest -> Reply): (r: Attempt<string>)
    ensures Nullish(data) || Prop(data, "userInput").Null? ==> r == Failure(TypeError)
    ensures r.Success? ==> MinCoverLetterLength <= |r.value| && Trimmed(r.value)
    ensures r.Success? ==> agent(AgentRequest(CoverLetterInput(data))).Returned?
    ensures !Nullish(data) && !Prop(data, "userInput").Null? && agent(AgentRequest(CoverLetterInput(data))).Threw?
            ==> r == Failure(AgentFailed)
    // the agent's string content, trimmed, is stored exactly when it has at least 100 characters
    ensures var reply := agent(AgentRequest(CoverLetterInput(data)));
            !Nullish(data) && !Prop(data, "userInput").Null? && reply.Returned?
            && Prop(Index0(Prop(reply.value, "output")), "content").Str?
            ==> var text := Trim(Prop(Index0(Prop(reply.value, "output")), "content").s);
                r == if |text| < MinCoverLetterLength then Failure(CoverLetterTooShort) else Success(text)
  {
    var userInput := CoverLetterInput(data);
    if Nullish(data) || userInput.Null? then Failure(TypeError)
    else
      var reply := agent(AgentRequest(userInput));
      if reply.Threw? then Failure(AgentFailed)
      else
        var text := CoverLetterText(reply.value);
        if text.Failure? then Failure(text.error)
        else if TooShort(text.value) then Failure(CoverLetterTooShort)
        else Success(text.value)
  }

  /** An agent answer with no content, or with white space only, is rejected as too short. */
  lemma BlankAnswerIsTooShort(data: Json, agent: CoverLetterRequest -> Reply)
    requires !Nullish(data) && !Prop(data, "userInput").Null?
    requires agent(AgentRequest(CoverLetterInput(data))).Returned?
    requires var content := Prop(Index0(Prop(agent(AgentRequest(CoverLetterInput(data))).value, "output")), "content");
             Nullish(content) || (content.Str? && AllSpace(content.s))
    ensures CoverLetterContent(data, agent) == Failure(CoverLetterTooShort)
  {
    var result := agent(AgentRequest(CoverLetterInput(data))).value;
    var content := Prop(Index0(Prop(result, "output")), "content");
    if content.Str? {
      TrimEmptyIffAllSpace(content.s);
    }
    assert CoverLetterText(result) == Success([]);
  }

  /**
   * The `AiCoverLetterAgent` handler: the steps up to the length gate
   * (`CoverLetterContent`), then the insert of `{coverLetter: text}`, which
   * is also returned.
   */
  method CoverLetterJob(table: HistoryTable, data: Json, agent: CoverLetterRequest -> Reply, dbOk: bool)
    returns (outcome: JobOutcome)
    requires table.Valid()
    modifies table
    ensures table.Valid()
    ensures CoverLetterContent(data, agent).Failure? ==> outcome == Failed(CoverLetterContent(data, agent).error)
    ensures outcome.Finished? <==>
              CoverLetterContent(data, agent).Success? && dbOk
              && FitsRequiredVarchar(Prop(data, "coverid")) && FitsRequiredVarchar(Prop(data, "userEmail"))
    ensures outcome.Finished? ==>
              outcome.returned == Obj(map["coverLetter" := Str(CoverLetterContent(data, agent).value)])
              && table.rows == old(table.rows) + [Row(old(table.nextId), Prop(data, "coverid").s, outcome.returned,
                                                      Prop(data, "userEmail").s, CoverLetterAgentType, CoverLetterInput(data))]
    ensures outcome.Failed? ==> table.rows == old(table.rows)
  {
    var text := CoverLetterContent(data, agent);
    if text.Failure? {
      return Failed(text.error);
    }
    var coverLetterId := Prop(data, "coverid");
    var userEmail := Prop(data, "userEmail");
    var userInput := CoverLetterInput(data);
    var parsedContent := Obj(map["coverLetter" := Str(text.value)]);
    var inserted := table.Insert(coverLetterId, parsedContent, userEmail, Str(CoverLetterAgentType), userInput, dbOk);
    if !inserted {
      return Failed(DatabaseFailed);
    }
    outcome := Finished(parsedContent);
  }
}

=== FILE: career_chat_route.dfy ===
/**
 * POST of the career-chat route: no validation and no try/catch; submit one
 * "AiCareerAgent" event, poll without any bound until the run reports
 * "Completed", and answer with the bare first element of its nested output.
 */
module CareerChatRoute {
  import opened JsonValue
  import opened Polling
  import opened Http

  /** The one event every request that reaches `inngest.send` submits. */
  function SubmittedEvent(body: Json): Event {
    Event("AiCareerAgent", Obj(map["userInput" := Prop(body, "userInput")]))
  }

  /**
   * `body` is what `req.json()` gave, `send` what `inngest.send` gave,
   * `runner` the answers to the status queries and `fuel` the number of
   * queries the model follows. Errors are not caught: they escape the handler.
   */
  method Post(body: Reply, send: Reply, runner: nat -> Reply, fuel: nat)
    returns (outcome: Outcome, sent: seq<Event>, queries: nat)
    ensures !Destructurable(body) ==> outcome == Crashed && sent == [] && queries == 0
    ensures Destructurable(body) ==> sent == [SubmittedEvent(body.value)]
    ensures queries <= fuel
    ensures Destructurable(body) && (send.Threw? || StrictRunIdOf(send.value).Threw?) ==> outcome == Crashed
    // a started run is polled until a decisive answer or the end of the fuel
    ensures Destructurable(body) && send.Returned? && StrictRunIdOf(send.value).Returned?
            ==> (queries == fuel && AllWaiting(true, runner, fuel))
                || (0 < queries && AllWaiting(true, runner, queries - 1)
                    && CheckCompleted(true, runner(queries - 1)) != KeepWaiting)
    ensures queries > 0 ==> send.Returned? && StrictRunIdOf(send.value).Returned?
    ensures outcome.StillPolling?
            <==> Destructurable(body) && send.Returned? && StrictRunIdOf(send.value).Returned?
                 && queries == fuel && AllWaiting(true, runner, fuel)
    // the only answer is 200 with the bare projected output, after a "Completed" status
    ensures outcome.Responded? ==>
              0 < queries && AllWaiting(true, runner, queries - 1) && runner(queries - 1).Returned?
              && StatusOf(CurrentRun(runner(queries - 1).value)) == Str("Completed")
              && ProjectCompletedOutput(runner(queries - 1).value).Returned?
              && ProjectCompletedOutput(runner(queries - 1).value).value != Undef
              && outcome.response == Ok(ProjectCompletedOutput(runner(queries - 1).value).value)
    ensures 0 < queries && CheckCompleted(true, runner(queries - 1)).Throws? ==> outcome == Crashed
    // a "Completed" answer is answered with 200 exactly when its output projects to a value;
    // `NextResponse.json(undefined)` throws, since `undefined` has no JSON text
    ensures 0 < queries && CheckCompleted(true, runner(queries - 1)).Completed?
            ==> outcome == if ProjectCompletedOutput(runner(queries - 1).value).Returned?
                              && ProjectCompletedOutput(runner(queries - 1).value).value != Undef
                           then Responded(Ok(ProjectCompletedOutput(runner(queries - 1).value).value))
                           else Crashed
  {
    sent, queries := [], 0;
    if !Destructurable(body) {
      return Crashed, sent, queries;
    }
    sent := [SubmittedEvent(body.value)];
    if send.Threw? {
      return Crashed, sent, queries;
    }
    var runId := StrictRunIdOf(send.value);
    if runId.Threw? {
      return Crashed, sent, queries;
    }
    var result;
    result, queries := WaitForCompleted(true, runner, fuel);
    match result
    case StillWaiting =>
      outcome := StillPolling;
    case Aborted =>
      outcome := Crashed;
    case Done(status) =>
      var output := ProjectCompletedOutput(status);
      outcome := if output.Threw? || output.value == Undef then Crashed else Responded(Ok(output.value));
  }

  /** A completed run without output projects to `undefined`, which the JSON response cannot carry. */
  lemma CompletedWithoutOutputCrashes(body: Json)
    requires StatusOf(CurrentRun(body)) == Str("Completed") && Nullish(Prop(CurrentRun(body), "output"))
    ensures ProjectCompletedOutput(body) == Returned(Undef)
  {
  }

  /** A status answer without `data` makes `data[0]` throw, and the error escapes the handler. */
  lemma AnswerWithoutDataCrashes(body: Json)
    requires !Nullish(body) && Nullish(Prop(body, "data"))
    ensures CheckCompleted(true, Returned(body)) == Throws
  {
  }
}

=== FILE: cover_letter_route.dfy ===
/**
 * POST of the cover-letter route: validate, submit one "AiCoverLetterAgent"
 * event, then poll the run at most 60 times, output first, with the output
 * extraction written inline; a failing status query is not caught and ends
 * the request with 500, and so does a spent budget.
 */
module CoverLetterRoute {
  import opened Optional
  import opened JsonValue
  import opened Extraction
  import opened Polling
  import opened Http

  const MaxAttempts: nat := 60

  /** 60 attempts; `getRuns` does not catch, so a failing query aborts. */
  const Policy := OutputFirstPolicy(MaxAttempts, false)

  const AgentType := "/ai-tools/ai-cover-letter-agent"

  /**
   * The inline chain `rawOutput?.output?.[0] || rawOutput?.output || rawOutput || null`
   * over `rawOutput = runStatus?.data?.[0]?.output` decides like the roadmap
   * route's explicit "no run yet" check followed by `extractOutput`: a missing
   * run has no output and no status, so the loop waits.
   */
  lemma InlineExtractionAgrees(body: Json)
    ensures var run := CurrentRun(body);
            var output := ExtractOutput(Prop(run, "output"));
            DecideOutputFirst(Policy, Returned(body))
            == if Truthy(output) then Found(output)
               else if StatusOf(run) == Str("Failed") then RunFailed
               else Continue
    ensures Nullish(CurrentRun(body)) ==> ExtractOutput(Prop(CurrentRun(body), "output")) == Null
  {
  }

  /** `!coverid || !user || !userInput` fails. */
  predicate Valid(body: Json, user: Option<User>) {
    Truthy(Prop(body, "coverid")) && user.Some? && Truthy(Prop(body, "userInput"))
  }

  /** The one event a valid request submits. */
  function SubmittedEvent(body: Json, user: User): Event {
    Event("AiCoverLetterAgent", Obj(map[
      "coverid" := Prop(body, "coverid"),
      "userInput" := Prop(body, "userInput"),
      "aiAgentType" := Str(AgentType),
      "userEmail" := EmailOf(user)]))
  }

  /**
   * `body` is what `req.json()` gave, `user` what `currentUser()` gave, `send`
   * what `inngest.send` gave and `runner` the answers to the status queries.
   * `sent` lists the events submitted and `queries` counts the status queries.
   */
  method Post(body: Reply, user: Option<User>, send: Reply, runner: nat -> Reply)
    returns (resp: Response, sent: seq<Event>, queries: nat)
    ensures !Destructurable(body) ==> resp == Error(500, InternalError) && sent == [] && queries == 0
    ensures resp.Status() == 400 <==> Destructurable(body) && !Valid(body.value, user)
    ensures resp.Status() == 400 ==> resp == Error(400, MissingFields) && sent == [] && queries == 0
    ensures Destructurable(body) && Valid(body.value, user) ==> sent == [SubmittedEvent(body.value, user.value)]
    ensures resp == Error(500, RunNotStarted)
            <==> Destructurable(body) && Valid(body.value, user) && send.Returned? && !Truthy(RunIdOf(send.value))
    ensures queries > 0 ==> Destructurable(body) && Valid(body.value, user)
                            && send.Returned? && Truthy(RunIdOf(send.value))
    ensures queries <= MaxAttempts
    // a started run is polled until a decisive answer or the end of the budget
    ensures Destructurable(body) && Valid(body.value, user) && send.Returned? && Truthy(RunIdOf(send.value))
            ==> (queries == MaxAttempts && AllContinue(Policy, runner, MaxAttempts))
                || (0 < queries && AllContinue(Policy, runner, queries - 1)
                    && DecideOutputFirst(Policy, runner(queries - 1)) != Continue)
    ensures resp.Status() == 500 ==> resp.message in {InternalError, RunNotStarted, GenerationFailed, NotReady}
    // a failing status query ends the request, and nothing else does after submission
    ensures resp == Error(500, InternalError)
            <==> !Destructurable(body) || (Valid(body.value, user) && send.Threw?)
                 || (0 < queries && AllContinue(Policy, runner, queries - 1) && runner(queries - 1).Threw?)
    // a truthy extracted output is answered with 200, whatever the run's status
    ensures resp.Status() == 200
            <==> 0 < queries && AllContinue(Policy, runner, queries - 1)
                 && DecideOutputFirst(Policy, runner(queries - 1)).Found?
    ensures resp.Status() == 200 ==>
              0 < queries && AllContinue(Policy, runner, queries - 1)
              && DecideOutputFirst(Policy, runner(queries - 1)).Found?
              && resp == Success(DecideOutputFirst(Policy, runner(queries - 1)).output, "coverid", Prop(body.value, "coverid"))
    ensures resp == Error(500, GenerationFailed)
            <==> 0 < queries && AllContinue(Policy, runner, queries - 1) && DecideOutputFirst(Policy, runner(queries - 1)) == RunFailed
    // a spent budget is answered with 500, not 504
    ensures resp == Error(500, NotReady)
            <==> queries == MaxAttempts && AllContinue(Policy, runner, MaxAttempts)
    ensures resp.Status() in {200, 400, 500}
  {
    MessagesDiffer();
    resp, sent, queries := Error(500, InternalError), [], 0;
    if !Destructurable(body) {
      return;
    }
    var coverid := Prop(body.value, "coverid");
    var userInput := Prop(body.value, "userInput");
    if !Truthy(coverid) || user.None? || !Truthy(userInput) {
      resp := Error(400, MissingFields);
      return;
    }
    sent := [SubmittedEvent(body.value, user.value)];
    if send.Threw? {
      return;
    }
    var runId := RunIdOf(send.value);
    if !Truthy(runId) {
      resp := Error(500, RunNotStarted);
      return;
    }
    var result;
    result, queries := PollOutputFirst(Policy, runner);
    if result.Exhausted? {
      resp := Error(500, NotReady);
    } else if result.step.Found? {
      resp := Success(result.step.output, "coverid", coverid);
    } else if result.step.RunFailed? {
      resp := Error(500, GenerationFailed);
    } else {
      resp := Error(500, InternalError);
    }
  }
}

=== FILE: extraction.dfy ===
/**
 * The output extractor of the roadmap route (`extractOutput`), which the
 * cover-letter route repeats inline: it normalises whatever shape the job
 * runner reports as a run's output into one payload, or `null` for "no result
 * yet".
 */
module Extraction {
  import opened JsonValue

  /** `raw?.output?.[0] || raw?.output || raw || null`; the optional chaining means it never throws. */
  function ExtractOutput(raw: Json): (r: Json)
    ensures r == Null <==> !Truthy(raw)
    ensures Truthy(raw) ==> Truthy(r)
    ensures r == Null || r == Index0(Prop(raw, "output")) || r == Prop(raw, "output") || r == raw
  {
    var first := Index0(Prop(raw, "output"));
    var whole := Prop(raw, "output");
    if Truthy(first) then first
    else if Truthy(whole) then whole
    else if Truthy(raw) then raw
    else Null
  }

  /** `{output: [x, ...]}` yields `x` when `x` is truthy. */
  lemma ExtractFirstElement(x: Json, rest: seq<Json>)
    requires Truthy(x)
    ensures ExtractOutput(Obj(map["output" := Arr([x] + rest)])) == x
  {
  }

  /** `{output: {...}}` yields the inner object when it has no property "0". */
  lemma ExtractInnerObject(m: map<string, Json>)
    requires "0" !in m
    ensures ExtractOutput(Obj(map["output" := Obj(m)])) == Obj(m)
  {
  }

  /** `{output: "abc"}` yields `"a"`: `[0]` indexes the string. */
  lemma ExtractStringFirstCharacter(s: string)
    requires s != []
    ensures ExtractOutput(Obj(map["output" := Str(s)])) == Str([s[0]])
  {
  }

  /** `{output: [{content: X}]}` yields the whole element `{content: X}`, not `X`. */
  lemma ExtractKeepsContentWrapper(x: Json)
    ensures ExtractOutput(Obj(map["output" := Arr([Obj(map["content" := x])])])) == Obj(map["content" := x])
  {
  }

  /** A truthy value without a truthy `output` property is returned as it is. */
  lemma ExtractBareValue(raw: Json)
    requires Truthy(raw) && !Truthy(Prop(raw, "output"))
    ensures ExtractOutput(raw) == raw
  {
  }
}

=== FILE: history.dfy ===
/**
 * The history table (`historyTable` in configs/schema.ts) as an in-memory
 * sequence of rows in insertion order, with the queries the history route
 * and the background jobs run against it.
 */
module History {
  import opened Optional
  import opened JsonValue

  /**
   * One row: `id` is the identity column, `recordId` the caller's correlation
   * id (not unique), `content` the tool's JSON result. `createdAt` is left out.
   */
  datatype Row = Row(id: nat, recordId: string, content: Json, userEmail: string, aiAgentType: string, metaData: Json)

  /** The length of the `varchar(255)` columns. */
  const VarcharLength := 255

  /** A value that a `varchar(255) NOT NULL` column accepts. */
  predicate FitsRequiredVarchar(v: Json) {
    v.Str? && |v.s| <= VarcharLength
  }

  ghost predicate IdsAscending(rows: seq<Row>) {
    forall i, j :: 0 <= i < j < |rows| ==> rows[i].id < rows[j].id
  }

  ghost predicate IdsDescending(rows: seq<Row>) {
    forall i, j :: 0 <= i < j < |rows| ==> rows[i].id > rows[j].id
  }

  /** `select ... where recordId = ?` then `[0]`: the index of the first row with that `recordId`. */
  function FirstWithRecordId(rows: seq<Row>, recordId: string): (r: Option<nat>)
    ensures r.Some? ==> r.value < |rows| && rows[r.value].recordId == recordId
    ensures forall j :: 0 <= j < |rows| && (r.None? || j < r.value) ==> rows[j].recordId != recordId
  {
    if rows == [] then None
    else if rows[0].recordId == recordId then Some(0)
    else
      match FirstWithRecordId(rows[1..], recordId)
      case None => None
      case Some(i) => Some(i + 1)
  }

  /**
   * `update ... set content = ? where recordId = ?`: every row whose
   * `recordId` equals the given value gets the new content; nothing else
   * changes. A `recordId` that is not a string matches no row.
   */
  function WithContent(rows: seq<Row>, recordId: Json, content: Json): (r: seq<Row>)
    ensures |r| == |rows|
    ensures forall i :: 0 <= i < |rows| ==>
              r[i] == if Str(rows[i].recordId) == recordId then rows[i].(content := content) else rows[i]
  {
    if rows == [] then []
    else
      var head := if Str(rows[0].recordId) == recordId then rows[0].(content := content) else rows[0];
      [head] + WithContent(rows[1..], recordId, content)
  }

  /**
   * `select ... where userEmail = ? order by id desc`: exactly the rows of
   * that user, newest (largest id) first. Rows are kept in insertion order,
   * in which ids ascend, so the order is the reverse of that.
   */
  function NewestFirst(rows: seq<Row>, email: string): (r: seq<Row>)
    ensures forall x :: x in r <==> x in rows && x.userEmail == email
    ensures |r| <= |rows|
    ensures IdsAscending(rows) ==> IdsDescending(r)
  {
    if rows == [] then []
    else
      var older := NewestFirst(rows[1..], email);
      assert forall x :: x in rows <==> x == rows[0] || x in rows[1..];
      if rows[0].userEmail == email then
        assert IdsAscending(rows) ==> IdsDescending(older + [rows[0]]) by {
          if IdsAscending(rows) {
            LaterRowsHaveLargerIds(rows);
            AppendSmallerId(older, rows[0]);
          }
        }
        older + [rows[0]]
      else older
  }

  /** In ascending order, every later row has a larger id than the first. */
  lemma LaterRowsHaveLargerIds(rows: seq<Row>)
    requires rows != [] && IdsAscending(rows)
    ensures IdsAscending(rows[1..])
    ensures forall x :: x in rows[1..] ==> x.id > rows[0].id
  {
    forall x | x in rows[1..]
      ensures x.id > rows[0].id
    {
      var k :| 0 <= k < |rows[1..]| && rows[1..][k] == x;
      assert rows[k + 1] == x;
    }
  }

  /** A descending list stays descending when a row with a smaller id is appended. */
  lemma AppendSmallerId(rows: seq<Row>, row: Row)
    requires IdsDescending(rows)
    requires forall x :: x in rows ==> x.id > row.id
    ensures IdsDescending(rows + [row])
  {
    forall i, j | 0 <= i < j < |rows| + 1
      ensures (rows + [row])[i].id > (rows + [row])[j].id
    {
      if j == |rows| {
        assert rows[i] in rows;
      }
    }
  }

  /** An update of `content` keeps every id where it was. */
  lemma WithContentKeepsIds(rows: seq<Row>, recordId: Json, content: Json)
    requires IdsAscending(rows)
    ensures IdsAscending(WithContent(rows, recordId, content))
  {
    var r := WithContent(rows, recordId, content);
    assert forall i :: 0 <= i < |rows| ==> r[i].id == rows[i].id;
  }

  /** The table. Ids are handed out in increasing order, as an identity column does. */
  class HistoryTable {
    var rows: seq<Row>
    var nextId: nat

    ghost predicate Valid()
      reads this
    {
      IdsAscending(rows) && forall i :: 0 <= i < |rows| ==> rows[i].id < nextId
    }

    constructor ()
      ensures Valid() && rows == [] && nextId == 1
    {
      rows := [];
      nextId := 1;
    }

    /**
     * `insert into historyTable values (...)`: the row is written when the
     * database accepts it, with the next identity value; it is refused when
     * a `NOT NULL varchar(255)` column gets no string or a too long one, and
     * when the database fails (`dbOk` false: connection, foreign key, ...).
     */
    method Insert(recordId: Json, content: Json, userEmail: Json, aiAgentType: Json, metaData: Json, dbOk: bool)
      returns (inserted: bool)
      requires Valid()
      modifies this
      ensures Valid()
      ensures inserted <==> dbOk && FitsRequiredVarchar(recordId) && FitsRequiredVarchar(userEmail)
                            && FitsRequiredVarchar(aiAgentType)
      ensures inserted ==> rows == old(rows) + [Row(old(nextId), recordId.s, content, userEmail.s, aiAgentType.s, metaData)]
      ensures !inserted ==> rows == old(rows)
    {
      inserted := dbOk && FitsRequiredVarchar(recordId) && FitsRequiredVarchar(userEmail)
                  && FitsRequiredVarchar(aiAgentType);
      if inserted {
        rows := rows + [Row(nextId, recordId.s, content, userEmail.s, aiAgentType.s, metaData)];
        nextId := nextId + 1;
      }
    }

    /**
     * `update historyTable set content = ? where recordId = ?`. It is refused
     * when the database fails, and when `content` is `undefined`: `.set()`
     * leaves out undefined values, and an update with nothing to set throws.
     */
    method SetContent(recordId: Json, content: Json, dbOk: bool) returns (updated: bool)
      requires Valid()
      modifies this
      ensures Valid()
      ensures updated <==> dbOk && content != Undef
      ensures rows == if updated then WithContent(old(rows), recordId, content) else old(rows)
    {
      updated := dbOk && content != Undef;
      if updated {
        WithContentKeepsIds(rows, recordId, content);
        rows := WithContent(rows, recordId, content);
      }
    }
  }
}

=== FILE: history_route.dfy ===
/**
 * The history route: POST inserts a row for the signed-in user, PUT replaces
 * the content of every row with a given `recordId` (without any sign-in
 * check), GET reads one record or lists the caller's records newest first.
 */
module HistoryRoute {
  import opened Optional
  import opened JsonValue
  import opened Http
  import opened History

  /** What the route answers. */
  datatype HistoryResponse =
    | Failed(status: int, error: string)
    | Inserted
    | Updated
    | OneRow(row: Option<Row>)   // `result[0] || {}`: None is `{}`
    | RowList(rows: seq<Row>)
    | Uncaught                    // an error outside the try/catch

  const NotAuthenticated := "User not authenticated"
  const InsertFailed := "Database insertion failed"
  const UpdateFailed := "Database update failed"
  const FetchFailed := "Database fetch failed"

  /** `user?.primaryEmailAddress` is present. */
  predicate Authenticated(user: Option<User>) {
    user.Some? && user.value.primaryEmail.Some?
  }

  /**
   * POST: `body` is what `req.json()` gave (read before any check, outside the
   * try/catch), `user` what `currentUser()` gave, `dbOk` whether the database
   * works. `recordId`, `content` and `aiAgentType` come from the body, the
   * e-mail address from the signed-in user.
   */
  method Post(table: HistoryTable, body: Reply, user: Option<User>, dbOk: bool) returns (resp: HistoryResponse)
    requires table.Valid()
    modifies table
    ensures table.Valid()
    ensures !Destructurable(body) ==> resp == Uncaught
    ensures Destructurable(body) && !Authenticated(user) ==> resp == Failed(401, NotAuthenticated)
    ensures resp == Inserted
            <==> Destructurable(body) && Authenticated(user) && dbOk
                 && FitsRequiredVarchar(Prop(body.value, "recordId"))
                 && FitsRequiredVarchar(Str(user.value.primaryEmail.value))
                 && FitsRequiredVarchar(Prop(body.value, "aiAgentType"))
    ensures Destructurable(body) && Authenticated(user) && resp != Inserted ==> resp == Failed(500, InsertFailed)
    ensures resp == Inserted ==>
              table.rows == old(table.rows) + [Row(old(table.nextId), Prop(body.value, "recordId").s,
                                                   Prop(body.value, "content"), user.value.primaryEmail.value,
                                                   Prop(body.value, "aiAgentType").s, Null)]
    ensures resp != Inserted ==> table.rows == old(table.rows)
  {
    if !Destructurable(body) {
      return Uncaught;
    }
    if user.None? || user.value.primaryEmail.None? {
      return Failed(401, NotAuthenticated);
    }
    var inserted := table.Insert(Prop(body.value, "recordId"), Prop(body.value, "content"),
                                 Str(user.value.primaryEmail.value), Prop(body.value, "aiAgentType"), Null, dbOk);
    resp := if inserted then Inserted else Failed(500, InsertFailed);
  }

  /**
   * PUT: no sign-in check; sets only `content`, on every row with the body's
   * `recordId`. A body without `content` leaves nothing to set, and fails.
   */
  method Put(table: HistoryTable, body: Reply, dbOk: bool) returns (resp: HistoryResponse)
    requires table.Valid()
    modifies table
    ensures table.Valid()
    ensures !Destructurable(body) ==> resp == Uncaught && table.rows == old(table.rows)
    ensures Destructurable(body)
            ==> resp == if dbOk && Prop(body.value, "content") != Undef then Updated else Failed(500, UpdateFailed)
    ensures resp == Updated ==>
              table.rows == WithContent(old(table.rows), Prop(body.value, "recordId"), Prop(body.value, "content"))
    ensures resp != Updated ==> table.rows == old(table.rows)
  {
    if !Destructurable(body) {
      return Uncaught;
    }
    var updated := table.SetContent(Prop(body.value, "recordId"), Prop(body.value, "content"), dbOk);
    resp := if updated then Updated else Failed(500, UpdateFailed);
  }

  /**
   * GET: `recordIdParam` is the `recordId` search parameter. With one, the
   * first row carrying it, whoever owns it; without one, the caller's rows,
   * newest first.
   */
  function Get(table: HistoryTable, recordIdParam: Option<string>, user: Option<User>, dbOk: bool)
    : (resp: HistoryResponse)
    reads table
    ensures !Authenticated(user) ==> resp == Failed(401, NotAuthenticated)
    ensures Authenticated(user) && !dbOk ==> resp == Failed(500, FetchFailed)
    ensures Authenticated(user) && dbOk && recordIdParam.Some? && recordIdParam.value != "" ==>
              resp.OneRow?
              && (resp.row.Some? ==> exists i :: 0 <= i < |table.rows| && table.rows[i] == resp.row.value
                                                 && resp.row.value.recordId == recordIdParam.value
                                                 && forall j :: 0 <= j < i ==> table.rows[j].recordId != recordIdParam.value)
              && (resp.row.None? <==> forall i :: 0 <= i < |table.rows| ==> table.rows[i].recordId != recordIdParam.value)
    ensures Authenticated(user) && dbOk && (recordIdParam.None? || recordIdParam.value == "") ==>
              resp.RowList?
              && (forall x :: x in resp.rows <==> x in table.rows && x.userEmail == user.value.primaryEmail.value)
              && (IdsAscending(table.rows) ==> IdsDescending(resp.rows))
  {
    if !Authenticated(user) then Failed(401, NotAuthenticated)
    else if !dbOk then Failed(500, FetchFailed)
    else if recordIdParam.Some? && recordIdParam.value != "" then
      match FirstWithRecordId(table.rows, recordIdParam.value)
      case None => OneRow(None)
      case Some(i) => OneRow(Some(table.rows[i]))
    else RowList(NewestFirst(table.rows, user.value.primaryEmail.value))
  }

  /** A lookup by `recordId` answers every signed-in caller alike: it does not filter by owner. */
  lemma LookupIgnoresCaller(table: HistoryTable, recordId: string, a: User, b: User, dbOk: bool)
    requires a.primaryEmail.Some? && b.primaryEmail.Some?
    requires recordId != ""
    ensures Get(table, Some(recordId), Some(a), dbOk) == Get(table, Some(recordId), Some(b), dbOk)
  {
  }
}

=== FILE: http.dfy ===
/**
 * What the four tool routes share: the signed-in user, the events they submit
 * to the job runner, their JSON responses and error messages.
 */
module Http {
  import opened Optional
  import opened JsonValue

  /** The signed-in user as `currentUser()` reports it; only the primary e-mail address matters here. */
  datatype User = User(primaryEmail: Option<string>)

  /**
   * An HTTP response: 200 with a JSON body, or an error status with the body
   * `{ error: message }`.
   */
  datatype Response = Ok(body: Json) | Error(code: int, message: string) {
    function Status(): int {
      if Ok? then 200 else code
    }
  }

  /** An event submitted to the job runner with `inngest.send`. */
  datatype Event = Event(name: string, data: Json)

  /**
   * What a handler does with one request: it answers it, it is still polling
   * after the queries the model follows (unbounded loops only), or an error
   * escapes the handler (a route without try/catch).
   */
  datatype Outcome = Responded(response: Response) | StillPolling | Crashed

  const MissingFields := "Missing required fields"
  const InternalError := "Internal Server Error"
  const RunNotStarted := "Failed to initiate Inngest run"
  const GenerationFailed := "AI generation failed"
  const NotReady := "Output not available yet. Try again later."

  /** The error messages are told apart by their first character. */
  lemma MessagesDiffer()
    ensures MissingFields != InternalError && MissingFields != RunNotStarted
    ensures MissingFields != GenerationFailed && MissingFields != NotReady
    ensures InternalError != RunNotStarted && InternalError != GenerationFailed && InternalError != NotReady
    ensures RunNotStarted != GenerationFailed && RunNotStarted != NotReady && GenerationFailed != NotReady
  {
    assert MissingFields[0] == 'M' && InternalError[0] == 'I' && RunNotStarted[0] == 'F';
    assert GenerationFailed[0] == 'A' && NotReady[0] == 'O';
  }

  /** `NextResponse.json({ output, <idKey>: id })` */
  function Success(output: Json, idKey: string, id: Json): Response {
    Ok(Obj(map["output" := output, idKey := id]))
  }

  /**
   * `const { a, b } = await req.json()` succeeds: the body parsed as JSON and
   * is neither `null` nor `undefined` (destructuring those throws).
   */
  predicate Destructurable(body: Reply) {
    body.Returned? && !Nullish(body.value)
  }

  /** `user.primaryEmailAddress?.emailAddress` */
  function EmailOf(user: User): Json {
    match user.primaryEmail
    case Some(e) => Str(e)
    case None => Undef
  }

  /** `result?.ids?.[0]` */
  function RunIdOf(sendResult: Json): Json {
    Index0(Prop(sendResult, "ids"))
  }

  /** `result?.ids[0]`: a present result without `ids` makes `[0]` throw. */
  function StrictRunIdOf(sendResult: Json): Reply {
    if Nullish(sendResult) then Returned(Undef) else Element0(Prop(sendResult, "ids"))
  }
}

=== FILE: json_value.dfy ===
/** Optional values, used wherever the source has `null` for "nothing here". */
module Optional {
  datatype Option<+T> = None | Some(value: T)
}

/**
 * The untyped JavaScript values that flow through the routes and the
 * background jobs: request bodies, the job runner's answers, the agents'
 * results. Only the handful of JavaScript operations the code applies to
 * them are modelled: truthiness, optional and strict property access,
 * `[0]` indexing and string conversion in template literals.
 */
module JsonValue {

  /** A JavaScript value. Numbers are integers (see README "## Left out"). */
  datatype Json =
    | Undef
    | Null
    | Bool(b: bool)
    | Num(n: int)
    | Str(s: string)
    | Arr(elems: seq<Json>)
    | Obj(fields: map<string, Json>)

  /** The outcome of calling code outside the model: it threw, or returned a value. */
  datatype Reply = Threw | Returned(value: Json)

  /** JavaScript truthiness: `undefined`, `null`, `false`, `0` and `""` are falsy. */
  predicate Truthy(v: Json) {
    match v
    case Undef => false
    case Null => false
    case Bool(b) => b
    case Num(n) => n != 0
    case Str(s) => s != []
    case Arr(_) => true
    case Obj(_) => true
  }

  /** The values on which `?.` short-circuits and `.` throws. */
  predicate Nullish(v: Json) {
    v.Undef? || v.Null?
  }

  /**
   * `v?.key` for a key that is neither an array index nor `length` (every key
   * the source reads this way: "output", "data", "status", "ids", ...).
   * Only objects have such properties.
   */
  function Prop(v: Json, key: string): Json {
    match v
    case Obj(m) => if key in m then m[key] else Undef
    case _ => Undef
  }

  /** `v.key`: like `Prop`, but reading a property of `null` or `undefined` throws. */
  function Member(v: Json, key: string): Reply {
    if Nullish(v) then Threw else Returned(Prop(v, key))
  }

  /**
   * `v?.[0]`: the first element of an array, the first character of a string
   * (as a one-character string), the property "0" of an object, and
   * `undefined` for everything else.
   */
  function Index0(v: Json): Json {
    match v
    case Arr(es) => if es == [] then Undef else es[0]
    case Str(s) => if s == [] then Undef else Str([s[0]])
    case Obj(m) => if "0" in m then m["0"] else Undef
    case _ => Undef
  }

  /** `v[0]`: like `Index0`, but indexing `null` or `undefined` throws. */
  function Element0(v: Json): Reply {
    if Nullish(v) then Threw else Returned(Index0(v))
  }

  /** The number a string of decimal digits denotes, most significant first. */
  function DecimalValue(s: string): nat
    requires forall i :: 0 <= i < |s| ==> '0' <= s[i] <= '9'
  {
    if s == [] then 0 else 10 * DecimalValue(s[..|s| - 1]) + (s[|s| - 1] - '0') as nat
  }

  /** The decimal digits of a natural number, most significant first, without leading zeros. */
  function NatToDecimal(n: nat): (r: string)
    ensures |r| > 0 && (forall i :: 0 <= i < |r| ==> '0' <= r[i] <= '9')
    ensures DecimalValue(r) == n
    ensures |r| > 1 ==> r[0] != '0'
  {
    var digit := ['0' + (n % 10) as char];
    if n < 10 then digit
    else
      var r := NatToDecimal(n / 10) + digit;
      assert r[..|r| - 1] == NatToDecimal(n / 10);
      r
  }

  /**
   * `String(v)`, as a template literal `${v}` converts a value: arrays are
   * joined with "," (with `null` and `undefined` elements as empty text) and
   * every object is "[object Object]".
   */
  function ToText(v: Json): string
    decreases v, 1
  {
    match v
    case Undef => "undefined"
    case Null => "null"
    case Bool(b) => if b then "true" else "false"
    case Num(n) => if n < 0 then "-" + NatToDecimal(-n) else NatToDecimal(n)
    case Str(s) => s
    case Arr(es) => JoinElements(es)
    case Obj(_) => "[object Object]"
  }

  /** `Array.prototype.join(",")` over already-converted elements. */
  function JoinElements(es: seq<Json>): string
    decreases es, 0
  {
    if es == [] then ""
    else
      var first := if Nullish(es[0]) then "" else ToText(es[0]);
      if |es| == 1 then first else first + "," + JoinElements(es[1..])
  }
}

=== FILE: polling.dfy ===
/**
 * The poll loops the tool routes run after submitting a job: they query the
 * job runner for the run started by the event and decide, answer by answer,
 * whether to wait and ask again.
 *
 * The runner is modelled by `runner: nat -> Reply`, the answer to the k-th
 * status query (counting from 0): a thrown error, or the response body, whose
 * `data[0]` is the current run. A delay between queries changes nothing in
 * the model; loops count queries, not milliseconds.
 *
 * Two loop shapes occur in the source:
 *  - output-first, bounded (roadmap, cover letter): stop as soon as the run
 *    has a truthy extracted output, or reports "Failed", or the attempt
 *    budget is spent;
 *  - wait-for-"Completed", unbounded (resume, career chat): stop only on
 *    status "Completed" or on an error thrown while asking.
 */
module Polling {
  import opened JsonValue
  import opened Extraction

  /** `runStatus?.data?.[0]`: the run the status answer reports. */
  function CurrentRun(body: Json): Json {
    Index0(Prop(body, "data"))
  }

  /** `run?.status` */
  function StatusOf(run: Json): Json {
    Prop(run, "status")
  }

  // ---------------------------------------------------------------------
  // Output-first loops

  /** What distinguishes the two output-first loops. */
  datatype OutputFirstPolicy = OutputFirstPolicy(maxAttempts: nat, queryErrorsAreTransient: bool)

  /** The decision taken on one status answer. */
  datatype Step = Continue | Found(output: Json) | RunFailed | QueryThrew

  /** How an output-first loop ends: with a decisive step, or with its budget spent. */
  datatype PollResult = Settled(step: Step) | Exhausted

  /**
   * One iteration of an output-first loop: a truthy extracted output wins
   * over every status; otherwise "Failed" stops the loop; a run that is not
   * there yet means "wait and ask again"; a thrown query either counts as
   * "not there yet" or aborts, as the policy says.
   */
  function DecideOutputFirst(p: OutputFirstPolicy, reply: Reply): (s: Step)
    ensures s.QueryThrew? <==> reply.Threw? && !p.queryErrorsAreTransient
    ensures s.Found? ==> reply.Returned? && Truthy(s.output)
                         && s.output == ExtractOutput(Prop(CurrentRun(reply.value), "output"))
    ensures reply.Returned? && Truthy(Prop(CurrentRun(reply.value), "output")) ==> s.Found?
    ensures reply.Returned? && !Truthy(Prop(CurrentRun(reply.value), "output"))
            ==> (s == RunFailed <==> StatusOf(CurrentRun(reply.value)) == Str("Failed"))
    ensures reply.Returned? && !Truthy(CurrentRun(reply.value)) ==> s == Continue
  {
    match reply
    case Threw => if p.queryErrorsAreTransient then Continue else QueryThrew
    case Returned(body) =>
      var run := CurrentRun(body);
      if !Truthy(run) then Continue
      else
        var output := ExtractOutput(Prop(run, "output"));
        if Truthy(output) then Found(output)
        else if StatusOf(run) == Str("Failed") then RunFailed
        else Continue
  }

  /** The first `n` answers all said "wait and ask again". */
  ghost predicate AllContinue(p: OutputFirstPolicy, runner: nat -> Reply, n: nat) {
    forall k: nat :: k < n ==> DecideOutputFirst(p, runner(k)) == Continue
  }

  /**
   * `for (let i = 0; i < maxAttempts; i++)`: query, decide, return early on a
   * decisive answer. `queries` is the number of status queries made.
   */
  method PollOutputFirst(p: OutputFirstPolicy, runner: nat -> Reply) returns (r: PollResult, queries: nat)
    ensures queries <= p.maxAttempts
    ensures r.Exhausted? <==> queries == p.maxAttempts && AllContinue(p, runner, p.maxAttempts)
    ensures r.Settled? ==> 0 < queries && AllContinue(p, runner, queries - 1)
                           && r.step != Continue && DecideOutputFirst(p, runner(queries - 1)) == r.step
  {
    var i: nat := 0;
    while i < p.maxAttempts
      invariant i <= p.maxAttempts
      invariant AllContinue(p, runner, i)
    {
      var step := DecideOutputFirst(p, runner(i));
      if step != Continue {
        return Settled(step), i + 1;
      }
      i := i + 1;
    }
    return Exhausted, i;
  }

  // ---------------------------------------------------------------------
  // Wait-for-"Completed" loops

  /** The decision taken on one status answer by a wait-for-"Completed" loop. */
  datatype Check = KeepWaiting | Completed(body: Json) | Throws

  /**
   * `runStatus?.data?.[0]?.status === "Completed"` (resume route), or, with
   * `strictData`, `runStatus?.data[0]?.status === "Completed"` (career chat
   * route), where a present answer without `data` makes `[0]` throw. A thrown
   * query propagates in both routes.
   */
  function CheckCompleted(strictData: bool, reply: Reply): (c: Check)
    ensures c.Completed? <==> reply.Returned? && StatusOf(CurrentRun(reply.value)) == Str("Completed")
    ensures c.Completed? ==> c.body == reply.value
    ensures c.Throws? <==> reply.Threw? || (strictData && !Nullish(reply.value) && Nullish(Prop(reply.value, "data")))
  {
    match reply
    case Threw => Throws
    case Returned(body) =>
      if strictData && !Nullish(body) && Nullish(Prop(body, "data")) then Throws
      else if StatusOf(CurrentRun(body)) == Str("Completed") then Completed(body)
      else KeepWaiting
  }

  /** A run reported "Failed" does not end a wait-for-"Completed" loop. */
  lemma FailedKeepsWaiting(strictData: bool, body: Json)
    requires StatusOf(CurrentRun(body)) == Str("Failed")
    ensures CheckCompleted(strictData, Returned(body)) == KeepWaiting
  {
  }

  /** The first `n` answers all said "keep waiting". */
  ghost predicate AllWaiting(strictData: bool, runner: nat -> Reply, n: nat) {
    forall k: nat :: k < n ==> CheckCompleted(strictData, runner(k)) == KeepWaiting
  }

  /** How a wait-for-"Completed" loop ends, within the queries the model follows. */
  datatype WaitResult = Done(body: Json) | Aborted | StillWaiting

  /**
   * `while (true) { runStatus = await getRuns(runId); if (... === "Completed") break; ... }`.
   * The source's loop has no bound; the model follows its first `fuel` queries,
   * and `StillWaiting` says the source is still looping after them.
   */
  method WaitForCompleted(strictData: bool, runner: nat -> Reply, fuel: nat) returns (r: WaitResult, queries: nat)
    ensures queries <= fuel
    ensures r.StillWaiting? <==> queries == fuel && AllWaiting(strictData, runner, fuel)
    ensures !r.StillWaiting? ==> 0 < queries && AllWaiting(strictData, runner, queries - 1)
    ensures r.Done? ==> CheckCompleted(strictData, runner(queries - 1)) == Completed(r.body)
                        && StatusOf(CurrentRun(r.body)) == Str("Completed")
    ensures r.Aborted? ==> CheckCompleted(strictData, runner(queries - 1)) == Throws
  {
    var i: nat := 0;
    while i < fuel
      invariant i <= fuel
      invariant AllWaiting(strictData, runner, i)
    {
      var c := CheckCompleted(strictData, runner(i));
      if c.Completed? {
        return Done(c.body), i + 1;
      } else if c.Throws? {
        return Aborted, i + 1;
      }
      i := i + 1;
    }
    return StillWaiting, i;
  }

  /** A runner that never reports "Completed" and never fails to answer keeps the loop polling forever. */
  lemma NeverCompletedPollsForever(strictData: bool, runner: nat -> Reply)
    requires forall k: nat :: runner(k).Returned?
    requires strictData ==> forall k: nat :: !Nullish(Prop(runner(k).value, "data"))
    requires forall k: nat :: StatusOf(CurrentRun(runner(k).value)) != Str("Completed")
    ensures forall fuel: nat :: AllWaiting(strictData, runner, fuel)
  {
  }

  /**
   * `runStatus.data?.[0].output?.output[0]`, read once the run is "Completed":
   * only the first element of the nested output; `undefined` when the run has
   * no output; a throw when the output has no `output` of its own to index.
   */
  function ProjectCompletedOutput(body: Json): (r: Reply)
    requires StatusOf(CurrentRun(body)) == Str("Completed")
    ensures Nullish(Prop(CurrentRun(body), "output")) ==> r == Returned(Undef)
    ensures r.Threw? <==> !Nullish(Prop(CurrentRun(body), "output"))
                          && Nullish(Prop(Prop(CurrentRun(body), "output"), "output"))
    ensures var inner := Prop(Prop(CurrentRun(body), "output"), "output");
            inner.Arr? && inner.elems != [] ==> r == Returned(inner.elems[0])
  {
    var run := CurrentRun(body);
    var output := Prop(run, "output");
    if Nullish(output) then Returned(Undef)
    else Element0(Prop(output, "output"))
  }
}

=== FILE: resume_route.dfy ===
/**
 * POST of the resume route: validate the upload, submit one "AiResumeAgent"
 * event, then poll without any bound until the run reports "Completed", and
 * answer with the first element of its nested output.
 */
module ResumeRoute {
  import opened Optional
  import opened JsonValue
  import opened Polling
  import opened Http

  const AgentType := "/ai-tools/ai-resume-analyzer"

  /**
   * The uploaded resume, as the route has it after the file handling this
   * model leaves out: its base64 text and the text of its first PDF page
   * (`docs[0]?.pageContent || ""`).
   */
  datatype ResumeUpload = ResumeUpload(base64: string, pdfText: string)

  /** `!resumeFile || !recordId || !user` fails; `recordId` is a form field, a string or absent. */
  predicate Valid(resumeFile: Option<ResumeUpload>, recordId: Option<string>, user: Option<User>) {
    resumeFile.Some? && recordId.Some? && recordId.value != "" && user.Some?
  }

  /** The one event a valid request submits: it carries `recordId` unchanged. */
  function SubmittedEvent(upload: ResumeUpload, recordId: string, user: User): Event {
    Event("AiResumeAgent", Obj(map[
      "recordId" := Str(recordId),
      "base64ResumeFile" := Str(upload.base64),
      "pdfText" := Str(upload.pdfText),
      "aiAgentType" := Str(AgentType),
      "userEmail" := EmailOf(user)]))
  }

  /**
   * `send` is what `inngest.send` gave, `runner` the answers to the status
   * queries and `fuel` the number of queries the model follows. Every error
   * is caught and answered with 500.
   */
  method Post(resumeFile: Option<ResumeUpload>, recordId: Option<string>, user: Option<User>,
              send: Reply, runner: nat -> Reply, fuel: nat)
    returns (outcome: Outcome, sent: seq<Event>, queries: nat)
    ensures !outcome.Crashed?
    ensures !Valid(resumeFile, recordId, user)
            ==> outcome == Responded(Error(400, MissingFields)) && sent == [] && queries == 0
    ensures Valid(resumeFile, recordId, user)
            ==> sent == [SubmittedEvent(resumeFile.value, recordId.value, user.value)]
    ensures outcome.Responded? && outcome.response.Status() == 400 ==> !Valid(resumeFile, recordId, user)
    // no run-id check: only a present send result without `ids` stops the request before polling
    ensures queries > 0 ==> send.Returned? && StrictRunIdOf(send.value).Returned?
    ensures Valid(resumeFile, recordId, user) && send.Returned? && StrictRunIdOf(send.value).Threw?
            ==> outcome == Responded(Error(500, InternalError)) && queries == 0
    ensures queries <= fuel
    ensures Valid(resumeFile, recordId, user) && send.Threw? ==> outcome == Responded(Error(500, InternalError))
    // a started run is polled until a decisive answer or the end of the fuel
    ensures Valid(resumeFile, recordId, user) && send.Returned? && StrictRunIdOf(send.value).Returned?
            ==> (queries == fuel && AllWaiting(false, runner, fuel))
                || (0 < queries && AllWaiting(false, runner, queries - 1)
                    && CheckCompleted(false, runner(queries - 1)) != KeepWaiting)
    ensures outcome.StillPolling?
            <==> Valid(resumeFile, recordId, user) && send.Returned? && StrictRunIdOf(send.value).Returned?
                 && queries == fuel && AllWaiting(false, runner, fuel)
    // a 200 answer only ever follows a "Completed" status, and echoes recordId
    ensures outcome.Responded? && outcome.response.Ok? ==>
              0 < queries && AllWaiting(false, runner, queries - 1) && runner(queries - 1).Returned?
              && StatusOf(CurrentRun(runner(queries - 1).value)) == Str("Completed")
              && ProjectCompletedOutput(runner(queries - 1).value).Returned?
              && outcome.response == Success(ProjectCompletedOutput(runner(queries - 1).value).value,
                                            "recordId", Str(recordId.value))
    // a "Completed" answer whose output projects without a throw is answered with 200
    ensures 0 < queries && CheckCompleted(false, runner(queries - 1)).Completed?
            && ProjectCompletedOutput(runner(queries - 1).value).Returned?
            ==> Valid(resumeFile, recordId, user)
                && outcome == Responded(Success(ProjectCompletedOutput(runner(queries - 1).value).value,
                                                "recordId", Str(recordId.value)))
    ensures 0 < queries && CheckCompleted(false, runner(queries - 1)).Completed?
            && ProjectCompletedOutput(runner(queries - 1).value).Threw?
            ==> outcome == Responded(Error(500, InternalError))
    ensures 0 < queries && runner(queries - 1).Threw? ==> outcome == Responded(Error(500, InternalError))
    ensures outcome.Responded? ==> outcome.response.Status() in {200, 400, 500}
  {
    sent, queries := [], 0;
    if resumeFile.None? || recordId.None? || recordId.value == "" || user.None? {
      return Responded(Error(400, MissingFields)), sent, queries;
    }
    sent := [SubmittedEvent(resumeFile.value, recordId.value, user.value)];
    if send.Threw? {
      return Responded(Error(500, InternalError)), sent, queries;
    }
    var runId := StrictRunIdOf(send.value);
    if runId.Threw? {
      return Responded(Error(500, InternalError)), sent, queries;
    }
    var result;
    result, queries := WaitForCompleted(false, runner, fuel);
    match result
    case StillWaiting =>
      outcome := StillPolling;
    case Aborted =>
      outcome := Responded(Error(500, InternalError));
    case Done(status) =>
      var output := ProjectCompletedOutput(status);
      if output.Threw? {
        outcome := Responded(Error(500, InternalError));
      } else {
        outcome := Responded(Success(output.value, "recordId", Str(recordId.value)));
      }
  }
}

=== FILE: roadmap_route.dfy ===
/**
 * POST of the roadmap route: validate, submit one "AIRoadmapAgent" event,
 * then poll the run at most 90 times, output first, with failed status
 * queries treated as "no run yet"; 504 when the budget is spent.
 */
module RoadmapRoute {
  import opened Optional
  import opened JsonValue
  import opened Polling
  import opened Http

  const MaxAttempts: nat := 90

  /** 90 attempts; `getRunStatus` catches a failing query and answers `null`. */
  const Policy := OutputFirstPolicy(MaxAttempts, true)

  /** `getRunStatus`: the error of a failing query is swallowed and `null` returned. */
  function GetRunStatus(reply: Reply): Reply {
    if reply.Threw? then Returned(Null) else reply
  }

  /** Swallowing the error of a query is the same, for the loop, as treating it as transient. */
  lemma SwallowedErrorIsTransient(reply: Reply)
    ensures DecideOutputFirst(Policy, reply) == DecideOutputFirst(OutputFirstPolicy(MaxAttempts, false), GetRunStatus(reply))
    ensures reply.Threw? ==> DecideOutputFirst(Policy, reply) == Continue
  {
  }

  /** `!roadmapId || !user || !userInput` fails. */
  predicate Valid(body: Json, user: Option<User>) {
    Truthy(Prop(body, "roadmapId")) && user.Some? && Truthy(Prop(body, "userInput"))
  }

  /** `user.primaryEmailAddress?.emailAddress || ""` */
  function SubmittedEmail(user: User): Json {
    if Truthy(EmailOf(user)) then EmailOf(user) else Str("")
  }

  /** The one event a valid request submits. */
  function SubmittedEvent(body: Json, user: User): Event {
    Event("AIRoadmapAgent", Obj(map[
      "roadmapId" := Prop(body, "roadmapId"),
      "userInput" := Prop(body, "userInput"),
      "userEmail" := SubmittedEmail(user)]))
  }

  /**
   * `body` is what `req.json()` gave, `user` what `currentUser()` gave, `send`
   * what `inngest.send` gave and `runner` the answers to the status queries.
   * `sent` lists the events submitted and `queries` counts the status queries.
   */
  method Post(body: Reply, user: Option<User>, send: Reply, runner: nat -> Reply)
    returns (resp: Response, sent: seq<Event>, queries: nat)
    ensures !Destructurable(body) ==> resp == Error(500, InternalError) && sent == [] && queries == 0
    ensures resp.Status() == 400 <==> Destructurable(body) && !Valid(body.value, user)
    ensures resp.Status() == 400 ==> resp == Error(400, MissingFields) && sent == [] && queries == 0
    ensures Destructurable(body) && Valid(body.value, user) ==> sent == [SubmittedEvent(body.value, user.value)]
    ensures resp == Error(500, RunNotStarted)
            <==> Destructurable(body) && Valid(body.value, user) && send.Returned? && !Truthy(RunIdOf(send.value))
    ensures queries > 0 ==> Destructurable(body) && Valid(body.value, user)
                            && send.Returned? && Truthy(RunIdOf(send.value))
    ensures queries <= MaxAttempts
    // a started run is polled until a decisive answer or the end of the budget
    ensures Destructurable(body) && Valid(body.value, user) && send.Returned? && Truthy(RunIdOf(send.value))
            ==> (queries == MaxAttempts && AllContinue(Policy, runner, MaxAttempts))
                || (0 < queries && AllContinue(Policy, runner, queries - 1)
                    && DecideOutputFirst(Policy, runner(queries - 1)) != Continue)
    ensures resp.Status() == 500 ==> resp.message in {InternalError, RunNotStarted, GenerationFailed}
    // a failing status query never aborts the request
    ensures resp == Error(500, InternalError)
            <==> !Destructurable(body) || (Valid(body.value, user) && send.Threw?)
    // a truthy extracted output is answered with 200, whatever the run's status
    ensures resp.Status() == 200
            <==> 0 < queries && AllContinue(Policy, runner, queries - 1)
                 && DecideOutputFirst(Policy, runner(queries - 1)).Found?
    ensures resp.Status() == 200 ==>
              0 < queries && AllContinue(Policy, runner, queries - 1)
              && DecideOutputFirst(Policy, runner(queries - 1)).Found?
              && resp == Success(DecideOutputFirst(Policy, runner(queries - 1)).output, "roadmapId", Prop(body.value, "roadmapId"))
    ensures resp == Error(500, GenerationFailed)
            <==> 0 < queries && AllContinue(Policy, runner, queries - 1) && DecideOutputFirst(Policy, runner(queries - 1)) == RunFailed
    ensures resp.Status() == 504
            <==> queries == MaxAttempts && AllContinue(Policy, runner, MaxAttempts)
    ensures resp.Status() == 504 ==> resp == Error(504, NotReady)
    ensures resp.Status() in {200, 400, 500, 504}
  {
    MessagesDiffer();
    resp, sent, queries := Error(500, InternalError), [], 0;
    if !Destructurable(body) {
      return;
    }
    var roadmapId := Prop(body.value, "roadmapId");
    var userInput := Prop(body.value, "userInput");
    if !Truthy(roadmapId) || user.None? || !Truthy(userInput) {
      resp := Error(400, MissingFields);
      return;
    }
    sent := [SubmittedEvent(body.value, user.value)];
    if send.Threw? {
      return;
    }
    var runId := RunIdOf(send.value);
    if !Truthy(runId) {
      resp := Error(500, RunNotStarted);
      return;
    }
    var result;
    result, queries := PollOutputFirst(Policy, runner);
    if result.Exhausted? {
      resp := Error(504, NotReady);
    } else if result.step.Found? {
      resp := Success(result.step.output, "roadmapId", roadmapId);
    } else {
      resp := Error(500, GenerationFailed);
    }
  }
}

=== FILE: text.dfy ===
/**
 * The two JavaScript string methods the background jobs rely on:
 * `String.prototype.replace` with a string pattern (only the FIRST occurrence
 * is replaced) and `String.prototype.trim`.
 */
module Text {
  import opened Optional

  /** `pat` occurs in `s` starting at index `i`. */
  predicate OccursAt(s: string, pat: string, i: int) {
    0 <= i && i + |pat| <= |s| && s[i..i + |pat|] == pat
  }

  /** `s.indexOf(pat, from)`: the first occurrence of `pat` at or after `from`. */
  function IndexOfFrom(s: string, pat: string, from: nat): (r: Option<nat>)
    requires from <= |s|
    ensures r.Some? ==> from <= r.value && OccursAt(s, pat, r.value)
    ensures forall j :: from <= j && (r.None? || j < r.value) ==> !OccursAt(s, pat, j)
    decreases |s| - from
  {
    if from + |pat| > |s| then None
    else if s[from..from + |pat|] == pat then Some(from)
    else IndexOfFrom(s, pat, from + 1)
  }

  /** `s.indexOf(pat)`, with `None` for -1. */
  function IndexOf(s: string, pat: string): (r: Option<nat>)
    ensures r.Some? ==> OccursAt(s, pat, r.value)
    ensures forall j :: 0 <= j && (r.None? || j < r.value) ==> !OccursAt(s, pat, j)
  {
    IndexOfFrom(s, pat, 0)
  }

  /** Two first occurrences are the same occurrence. */
  lemma FirstOccurrenceUnique(s: string, pat: string, i: int, k: int)
    requires OccursAt(s, pat, i) && forall j :: 0 <= j < i ==> !OccursAt(s, pat, j)
    requires OccursAt(s, pat, k) && forall j :: 0 <= j < k ==> !OccursAt(s, pat, j)
    ensures i == k
  {
  }

  /** `s.replace(pat, rep)` for a string `pat`: only the first occurrence is replaced. */
  function ReplaceFirst(s: string, pat: string, rep: string): (r: string)
    ensures (forall j :: !OccursAt(s, pat, j)) ==> r == s
    ensures forall i :: OccursAt(s, pat, i) && (forall j :: 0 <= j < i ==> !OccursAt(s, pat, j)) ==>
              r == s[..i] + rep + s[i + |pat|..]
  {
    match IndexOf(s, pat)
    case None => s
    case Some(i) =>
      assert forall k :: OccursAt(s, pat, k) && (forall j :: 0 <= j < k ==> !OccursAt(s, pat, j)) ==> k == i by {
        forall k | OccursAt(s, pat, k) && (forall j :: 0 <= j < k ==> !OccursAt(s, pat, j))
          ensures k == i
        {
          FirstOccurrenceUnique(s, pat, i, k);
        }
      }
      s[..i] + rep + s[i + |pat|..]
  }

  /**
   * The characters `trim` removes: the ECMAScript WhiteSpace and
   * LineTerminator code points.
   */
  predicate IsSpace(c: char) {
    ('\t' <= c <= '\r') || c == ' ' || c == '\U{00A0}' || c == '\U{1680}'
    || ('\U{2000}' <= c <= '\U{200A}') || c == '\U{2028}' || c == '\U{2029}'
    || c == '\U{202F}' || c == '\U{205F}' || c == '\U{3000}' || c == '\U{FEFF}'
  }

  predicate AllSpace(s: string) {
    forall i :: 0 <= i < |s| ==> IsSpace(s[i])
  }

  /** The end of the run of white space that starts at `k`. */
  function SpaceRunFrom(s: string, k: nat): (n: nat)
    requires k <= |s|
    ensures k <= n <= |s|
    ensures forall i :: k <= i < n ==> IsSpace(s[i])
    ensures n < |s| ==> !IsSpace(s[n])
    decreases |s| - k
  {
    if k < |s| && IsSpace(s[k]) then SpaceRunFrom(s, k + 1) else k
  }

  /** The start of the run of white space that ends at `k`. */
  function SpaceRunBefore(s: string, k: nat): (n: nat)
    requires k <= |s|
    ensures n <= k
    ensures forall i :: n <= i < k ==> IsSpace(s[i])
    ensures 0 < n ==> !IsSpace(s[n - 1])
  {
    if 0 < k && IsSpace(s[k - 1]) then SpaceRunBefore(s, k - 1) else k
  }

  /** `s.trimStart()`: the longest suffix of `s` that does not start with white space. */
  function TrimStart(s: string): (r: string)
    ensures |r| <= |s| && r == s[|s| - |r|..]
    ensures AllSpace(s[..|s| - |r|])
    ensures r != [] ==> !IsSpace(r[0])
  {
    s[SpaceRunFrom(s, 0)..]
  }

  /** `s.trimEnd()`: the longest prefix of `s` that does not end with white space. */
  function TrimEnd(s: string): (r: string)
    ensures |r| <= |s| && r == s[..|r|]
    ensures AllSpace(s[|r|..])
    ensures r != [] ==> !IsSpace(r[|r| - 1])
  {
    s[..SpaceRunBefore(s, |s|)]
  }

  /** No white space at either end. */
  predicate Trimmed(s: string) {
    s == [] || (!IsSpace(s[0]) && !IsSpace(s[|s| - 1]))
  }

  /** `s.trim()`. */
  function Trim(s: string): (r: string)
    ensures |r| <= |s|
    ensures Trimmed(r)
  {
    TrimEnd(TrimStart(s))
  }

  /** `trim` leaves nothing exactly of a text that is all white space. */
  lemma TrimEmptyIffAllSpace(s: string)
    ensures Trim(s) == [] <==> AllSpace(s)
  {
    var t := TrimStart(s);
    if Trim(s) == [] {
      forall i | 0 <= i < |s|
        ensures IsSpace(s[i])
      {
        assert s[i] == s[..|s| - |t|][i];
      }
    }
  }

  /** Leading white space before a non-space character is exactly what `trimStart` drops. */
  lemma TrimStartDropsPrefix(w: string, u: string)
    requires AllSpace(w)
    requires u == [] || !IsSpace(u[0])
    ensures TrimStart(w + u) == u
  {
    var s := w + u;
    assert s[|w|..] == u;
  }

  /** Trailing white space after a non-space character is exactly what `trimEnd` drops. */
  lemma TrimEndDropsSuffix(u: string, w: string)
    requires AllSpace(w)
    requires u == [] || !IsSpace(u[|u| - 1])
    ensures TrimEnd(u + w) == u
  {
    var s := u + w;
    assert s[..|u|] == u;
  }

  /** `trim` strips white space around a text that starts and ends with a non-space. */
  lemma TrimAround(w1: string, u: string, w2: string)
    requires AllSpace(w1) && AllSpace(w2)
    requires u != [] && !IsSpace(u[0]) && !IsSpace(u[|u| - 1])
    ensures Trim(w1 + u + w2) == u
  {
    assert w1 + u + w2 == w1 + (u + w2);
    TrimStartDropsPrefix(w1, u + w2);
    TrimEndDropsSuffix(u, w2);
  }
}
